=== FILE: README.md ===
# Immutable red-black tree map, modelled in Dafny

`TreeNode` is a persistent ordered map from `int` keys to `String` values.
It is built as a red-black tree whose nodes never change. `add` and `remove`
rebuild only the path from the root to the edited position. On the way back
up they repair the colours with recursive fix-up steps: `fixAfterInsertion`
removes red-red violations, and `fixAfterDeletion` makes up for a subtree
that came back one black node short (a "super black" subtree). Every node
caches the size of its subtree.

The Dafny project models that class as pure functions over an immutable
datatype and proves that:

- `add`, `remove` and `get` behave as a map;
- sizes stay exact;
- order, the black root, the absence of red-red pairs and uniform black
  height are preserved by every public operation.

Modules, following the structure of `TreeNode.java`:

- `TreeNodes` (`tree_nodes.dfy`) holds the node datatype and the null-safe
  accessors (`colorOf`, `leftOf`, `rightOf`, `sizeOf`, `isBlack`, `isRed`).
  It also defines the specification functions:
  - `Content`, the entries as a map;
  - `Inorder`, the keys in in-order sequence;
  - `Count`, `Ordered`, `SizeOk`, `NoRedRed`, `BlackHeight` and `Balanced`.
- `Primitives` (`primitives.dfy`) holds the rebuild helpers `newNode`,
  `setColor`, `copyWithColor`, `copy`, `copyWithSuperBlack`, `rotateLeft`
  and `rotateRight`, plus what each keeps.
- `Lookup` (`lookup.dfy`) holds `get`.
- `Insertion` (`insertion.dfy`) holds `addNode`, `addIntoChildNode` and
  `fixAfterInsertion`.
- `Deletion` (`deletion.dfy`) holds both `removeNode` overloads, the
  successor search and `fixAfterDeletion`.
- `TreeMap` (`tree_map.dfy`) holds the public `empty`, `single`, `add`,
  `remove` and `size`, with the map laws.
- `Checks` (`checks.dfy`) holds the structural checks of `TreeNodeTest`
  (`verifyRootIsBlack`, `verifyBlackNumberInPath`,
  `verifyRedChildrenAreRed`), the fixed test scenarios, and arbitrary
  sequences of operations compared against a plain map.

Representation choices:

- An absent child (`null`) is `Leaf`.
- The Java class decides which child a recursive call rebuilt by reference
  comparison (`newLeft != left`). Here the side is an explicit `Side`
  argument. Insertion always allocates a fresh child, and deletion reports
  an untouched subtree as `Unchanged`, so this is the side the Java
  comparison finds.
- `fixAfterDeletion` returns `this` when nothing changed. Here that is the
  `Unchanged` result of `RemoveNode`.
- The "super black" flag is returned beside the rebuilt subtree in
  `Removal.Changed(tree, superBlack)`. It is not stored in the node. The
  Java class only ever reads the flag of a subtree that a recursive call
  has just returned.
- The fix-up reads the *old* child's colour where the Java code does
  (`isBlack(left)` in `fixAfterInsertion`, `isRed(left)` in
  `fixAfterDeletion`). The deficiency test `!isSuperBlack(newLeft) &&
  (newLeft != null || isRed(left))` is the negation of
  `Deficient(before, newChild, superBlack)`, because every producer sets
  the flag only on a node (`CopyWithSuperBlack` stores
  `src.Node? && superBlack`), as `isSuperBlack(null)` is false.

Two details of the code's conventions:

- The code's `empty()` is a sentinel node with size 0, key 0 and a null
  value. The model uses `Leaf`, which answers "absent" for every key, as
  the sentinel's `get(0)` (null) does.
- The code's `remove` can return a black root whose stored `superBlack`
  flag is still set. That flag is never read again, so the model, which
  does not store it, behaves the same.

## Model

| member | source | states |
|---|---|---|
| TreeNodes.SizeOfIsCount | src/main/java/TreeNode.java:314-316 | when every cached size is `sizeOf(left) + sizeOf(right) + 1`, `sizeOf` is the true number of nodes |
| TreeNodes.CountIsNumberOfKeys | src/main/java/TreeNode.java:134-136 | in an ordered tree the node count is the number of distinct keys mapped |
| TreeNodes.SameInorderSameOrder | src/main/java/TreeNode.java:330-338 | binary-search order depends only on the in-order key sequence, so any rebuild that keeps that sequence, as both rotations do, keeps the order `get` relies on |
| Primitives.NewNode | src/main/java/TreeNode.java:298-300 | a fresh node is red, maps exactly its one entry, has exact size 1, no red-red pair and black height 0, so it can replace an absent child of any valid tree |
| Primitives.RotateLeft | src/main/java/TreeNode.java:330-333 | no contract of its own; `Primitives.RotateLeftKeepsEntries` states what the rotation keeps |
| Primitives.RotateRight | src/main/java/TreeNode.java:335-338 | no contract of its own; `Primitives.RotateRightKeepsEntries` states what the rotation keeps |
| Primitives.SetColor | src/main/java/TreeNode.java:340-345 | no contract of its own; `Primitives.SetColorKeepsEntries` states that only the root colour changes |
| Primitives.CopyWithColor | src/main/java/TreeNode.java:347-352 | no contract of its own; `Primitives.CopyWithColorEntries` states what the copy holds |
| Primitives.Copy | src/main/java/TreeNode.java:354-356 | no contract of its own; `Primitives.CopyWithColorEntries` covers it, as `copy` is `copyWithColor` with the source's colour |
| Primitives.CopyWithSuperBlack | src/main/java/TreeNode.java:358-367 | the result is a node exactly when the source is one, and carries the flag exactly when it is a node and the flag was asked for: the flag is never set on an absent subtree |
| Primitives.RotateLeftKeepsEntries | src/main/java/TreeNode.java:330-333 | `rotateLeft` keeps the in-order key sequence, the entries and the node count, and leaves exact cached sizes |
| Primitives.RotateRightKeepsEntries | src/main/java/TreeNode.java:335-338 | `rotateRight` keeps the in-order key sequence, the entries and the node count, and leaves exact cached sizes |
| Primitives.SetColorKeepsEntries | src/main/java/TreeNode.java:340-345 | `setColor` changes only the root's colour: entries, order, sizes, balance and the children's red-red freedom are kept |
| Primitives.CopyWithColorEntries | src/main/java/TreeNode.java:347-356 | `copy`/`copyWithColor` place the source's entry between the new children's entries and recompute an exact size |
| Lookup.Get | src/main/java/TreeNode.java:117-127 | no contract of its own; `Lookup.GetMatchesContent` states that on an ordered tree it finds exactly the entries of the contents |
| Lookup.GetMatchesContent | src/main/java/TreeNode.java:117-127 | on an ordered tree `get` returns the value mapped to the key, or absent exactly when the key is not mapped |
| Insertion.FixAfterInsertion | src/main/java/TreeNode.java:185-226 | the result is a node whenever the child that received the insertion is one; `Insertion.FixAfterInsertionKeepsEntries` and the two balance lemmas below state what it holds |
| Insertion.AddNode | src/main/java/TreeNode.java:150-158 | insertion below an existing node always returns a node; `Insertion.AddIntoChildNodeEntries` and `Insertion.AddIntoChildNodeBalance` state what it holds |
| Insertion.AddIntoChildNode | src/main/java/TreeNode.java:286-288 | insertion into a possibly absent child always returns a node, a fresh red one in place of an absent child; its entries and balance are stated by the two lemmas named above |
| Insertion.FixAfterInsertionKeepsEntries | src/main/java/TreeNode.java:185-226 | every branch of the insert fix-up (copy, recolour, single or double rotation) keeps the entries, in-order keys and size of the plain rebuild |
| Insertion.AddIntoChildNodeEntries | src/main/java/TreeNode.java:150-158 | inserting maps the key to the new value, keeps every other entry and order, and adds one node only for a new key |
| Insertion.FixAfterInsertionLeftBalance | src/main/java/TreeNode.java:187-207 | after an insert on the left, the fix-up keeps the black height and resolves red-red below a black node; below a red node it hands up at most one red-red pair at the root |
| Insertion.FixAfterInsertionRightBalance | src/main/java/TreeNode.java:208-225 | the same for an insert on the right |
| Insertion.AddIntoChildNodeBalance | src/main/java/TreeNode.java:286-288 | inserting into a valid subtree keeps its black height; under a black old root no red-red remains, under a red one only at the root |
| Deletion.Leftmost | src/main/java/TreeNode.java:173-177 | the successor search finds a node without left child whose entry is in the subtree and whose key is the subtree's smallest |
| Deletion.FixAfterDeletion | src/main/java/TreeNode.java:228-282 | the fix-up always returns a `Changed` result; `Deletion.FixAfterDeletionKeepsEntries` and `Deletion.FixAfterDeletionBalance` state what it holds |
| Deletion.RemoveNode | src/main/java/TreeNode.java:160-183 | no contract of its own (the null-tolerant wrapper at lines 290-296 is folded in); `Deletion.RemoveNodeEntries` and `Deletion.RemoveNodeBalance` state what it returns |
| Deletion.FixAfterDeletionKeepsEntries | src/main/java/TreeNode.java:228-282 | every branch of the delete fix-up (including the nested repairs of the red-sibling case) keeps the entries, in-order keys and size of the plain rebuild |
| Deletion.RemoveNodeEntries | src/main/java/TreeNode.java:160-183 | removal leaves the tree untouched exactly when the key is absent, and otherwise drops exactly that entry, keeps order and removes one node |
| Deletion.RemoveSpliceStep | src/main/java/TreeNode.java:166-171 | a node with at most one child is removed by splicing in that child with all other entries kept |
| Deletion.RemoveSuccessorStep | src/main/java/TreeNode.java:172-181 | a node with two children takes over its successor's entry, and the successor is removed from the right subtree, which drops exactly the removed key |
| Deletion.DeleteLeftRedSiblingBalance | src/main/java/TreeNode.java:239-243 | a red sibling is rotated up and the two nested repairs leave a repaired subtree of the right black height that is never flagged and has a black root |
| Deletion.DeleteLeftRecolourBalance | src/main/java/TreeNode.java:245-247 | a black sibling with black children turns red and the subtree is always handed up flagged, one black short |
| Deletion.DeleteLeftRotationBalance | src/main/java/TreeNode.java:248-257 | a black sibling with a red child is rotated up (after an inner rotation when only its near child is red); the result is not flagged, keeps the colour of `self` and restores the black height |
| Deletion.PrepareSiblingLeft | src/main/java/TreeNode.java:249-253 | no contract of its own; `Deletion.DeleteLeftSiblingPrepared` states what case 3 yields |
| Deletion.RotateSiblingUpLeft | src/main/java/TreeNode.java:254-256 | no contract of its own; `Deletion.DeleteLeftOuterRotation` states what case 4 builds |
| Deletion.DeleteLeftSiblingPrepared | src/main/java/TreeNode.java:249-253 | case 3 turns a black sibling whose only red child is the near one into a valid black sibling of the same black height whose far child is red |
| Deletion.DeleteLeftOuterRotation | src/main/java/TreeNode.java:254-256 | case 4 builds a subtree with the colour of `self`, the parent of the removed side, no red-red, uniform black height, and the black height of the sibling plus one when `self` is black |
| Deletion.DeleteRightRedSiblingBalance | src/main/java/TreeNode.java:265-269 | for a removal on the right, a red left sibling is rotated up and the result is a repaired subtree of the right black height that is never flagged and has a black root |
| Deletion.DeleteRightRecolourBalance | src/main/java/TreeNode.java:270-271 | for a removal on the right, a black left sibling with black children turns red and the subtree is always handed up flagged, one black short |
| Deletion.DeleteRightRotationBalance | src/main/java/TreeNode.java:272-279 | for a removal on the right, a black left sibling with a red child is rotated up; the result is not flagged, keeps the colour of `self` and restores the black height |
| Deletion.PrepareSiblingRight | src/main/java/TreeNode.java:273-276 | no contract of its own; `Deletion.DeleteRightSiblingPrepared` states what the mirrored case 3 yields |
| Deletion.RotateSiblingUpRight | src/main/java/TreeNode.java:277-278 | no contract of its own; `Deletion.DeleteRightOuterRotation` states what the mirrored case 4 builds |
| Deletion.DeleteRightSiblingPrepared | src/main/java/TreeNode.java:273-276 | mirror of case 3 for a removal on the right |
| Deletion.DeleteRightOuterRotation | src/main/java/TreeNode.java:277-278 | mirror of case 4 for a removal on the right: the subtree takes the colour of `self`, the parent of the removed side |
| Deletion.FixAfterDeletionBalance | src/main/java/TreeNode.java:228-282 | from a repaired child and a valid sibling the fix-up builds a subtree either of full black height without red-red, or one black short, flagged, with red-red at most at its root |
| Deletion.RemoveNodeBalance | src/main/java/TreeNode.java:290-296 | removal from a subtree without red-red and of uniform black height returns it unchanged or repaired: full height, or one short (flagged, or an absent child where a black one was) |
| TreeMap.Empty | src/main/java/TreeNode.java:53-55 | the empty tree maps nothing, has size 0 and satisfies every invariant |
| TreeMap.Single | src/main/java/TreeNode.java:64-66 | a singleton maps exactly its key, has size 1 and satisfies every invariant |
| TreeMap.Add | src/main/java/TreeNode.java:77-87 | the root `add` returns is a black node |
| TreeMap.AddIsRedBlack | src/main/java/TreeNode.java:69-87 | `add` keeps order, exact sizes, no red-red, uniform black height and a black root; it maps the key to the value, keeps all else, and grows by one only for a new key |
| TreeMap.Remove | src/main/java/TreeNode.java:96-108 | a non-empty receiver always comes back with a black root, red or not, as with `add`; `TreeMap.RemoveIsRedBlack` and `TreeMap.RemoveAbsentRepaints` state the rest |
| TreeMap.RemoveIsRedBlack | src/main/java/TreeNode.java:89-108 | `remove` keeps every invariant, drops exactly the key, shrinks by one only when it was present, and returns the same tree when it was absent |
| TreeMap.GetAfterAdd | src/main/java/TreeNode.java:117-127 | after `add(k, v)`, `get(k)` is `v` and every other key answers as before |
| TreeMap.GetAfterRemove | src/main/java/TreeNode.java:96-108 | after `remove(k)`, `get(k)` is absent and every other key answers as before |
| TreeMap.RemoveUnchangedIffAbsent | src/main/java/TreeNode.java:96-99 | `remove` returns the tree it was given exactly when `get` finds no value for the key |
| TreeMap.RemoveAbsentRepaints | src/main/java/TreeNode.java:96-107 | on any ordered subtree, removing an absent key keeps every entry in order and returns a black root: a red receiver comes back as a black copy, a black one as itself |
| TreeMap.RemoveIdempotent | src/main/java/TreeNode.java:100-107 | removing a key twice gives the tree of removing it once |
| TreeMap.AddOverwrite | src/main/java/TreeNode.java:150-156 | overwriting a present key keeps the size and makes `get` return the new value |
| TreeMap.RemoveAfterAdd | src/main/java/TreeNode.java:77-108 | adding a key and then removing it leaves exactly the other entries of the original tree |
| TreeMap.Size | src/main/java/TreeNode.java:134-136 | no contract of its own; `TreeMap.SizeIsNumberOfKeys` states that it is the number of keys mapped |
| TreeMap.SizeIsNumberOfKeys | src/main/java/TreeNode.java:128-136 | `size()` of a valid tree is the number of keys it maps |
| Checks.BlackPathsMatchBalance | src/test/java/TreeNodeTest.java:113-132 | the test's black-path walk succeeds exactly on balanced trees and returns the black count of every root-to-absent-child path |
| Checks.ChecksMeanBlackRootAndBalance | src/test/java/TreeNodeTest.java:95-111 | the test's three checks together accept exactly the balanced trees with a black root |
| Checks.RedBlackPassesChecks | src/test/java/TreeNodeTest.java:90-99 | every tree satisfying the invariants passes the test's checks |
| Checks.Scenario0 | src/test/java/TreeNodeTest.java:9-16 | removing from empty then adding one key gives size 1 and that value; removing it again gives size 0; both trees pass the structural checks of the tests |
| Checks.Scenario1 | src/test/java/TreeNodeTest.java:18-25 | three adds of distinct keys then removal of an absent key: size 3, each key maps to its value, and the tree passes the structural checks of the tests |
| Checks.Scenario2 | src/test/java/TreeNodeTest.java:27-34 | three adds, removal of one, overwrite of another: size 2, the new value, the untouched value and absence are observed |
| Checks.ReplayAgreesWithMap | src/test/java/TreeNodeTest.java:73-87 | after any sequence of `add`/`remove` calls the tree is valid, passes the structural checks of the tests, maps exactly what a plain map fed the same calls maps, and its size is that map's size |

## Left out

- `toString` (src/main/java/TreeNode.java:138-148): it renders a diagnostic string with no stable format.
- Object identity, structural sharing between versions and allocation: Dafny datatypes are immutable values, so persistence holds by construction. The reference comparisons the code uses are replaced by the explicit `Side` argument and the `Unchanged` result.
- The sentinel of `empty()` (key 0, null value, size 0) is `Leaf`. A non-empty tree never contains that sentinel.
- The stored `superBlack` field, `isSuperBlack` and the stale flags left in returned trees: the flag travels in the `Removal` result instead, since only a freshly returned subtree's flag is ever read. The five-argument `copyWithSuperBlack` overload is used only by the four-argument one and is folded into `CopyWithSuperBlack`.
- Null `String` values: values are Dafny strings, never null. In the Java class, `add(k, null)` followed by `get(k)` cannot be told apart from an absent key; the model has no such value.
- 32-bit `int` arithmetic: keys and sizes are unbounded integers. A Java tree with more than 2^31 - 1 nodes would overflow `size`, which is not modelled.
- The randomised driver of `testRandom` (`Math.random`) and the JUnit plumbing: `Checks.ReplayAgreesWithMap` covers every operation sequence instead of random ones.
- Scenarios test3, test6, test7 and test8 of TreeNodeTest.java are not restated one by one: they are instances of `Checks.ReplayAgreesWithMap` and the `TreeMap` laws.
- Thread safety: the class has no concurrency code.

=== FILE: checks.dfy ===
/**
  The structural checks of TreeNodeTest.java (`verifyRootIsBlack`,
  `verifyBlackNumberInPath`, `verifyRedChildrenAreRed`) as functions, what
  they accept, and the fixed scenarios of the test suite derived from the
  general laws of `TreeMap`.
 */
module Checks {
  import opened TreeNodes
  import opened Lookup
  import opened TreeMap

  /**
    The black-path walk of the tests: count black nodes (an absent child
    counts as black) down every path; the first path fixes the expected
    count (`pathBlackCount == -1` means none fixed yet) and every later
    path must match it. `None` is a failed assertion.
   */
  function BlackPaths(t: Tree, blackCount: nat, pathBlackCount: int): Option<int> {
    var count := if IsBlack(t) then blackCount + 1 else blackCount;
    if t.Leaf? then
      if pathBlackCount == -1 then Some(count)
      else if count == pathBlackCount then Some(pathBlackCount)
      else None
    else
      match BlackPaths(t.left, count, pathBlackCount)
      case None => None
      case Some(p) => BlackPaths(t.right, count, p)
  }

  /** The walk succeeds exactly on balanced trees, and reports the path length through an absent child. */
  lemma {:induction false} BlackPathsMatchBalance(t: Tree, blackCount: nat, pathBlackCount: int)
    ensures BlackPaths(t, blackCount, pathBlackCount) ==
      if Balanced(t) && (pathBlackCount == -1 || pathBlackCount == blackCount + BlackHeight(t) + 1)
      then Some(blackCount + BlackHeight(t) + 1)
      else None
  {
    match t
    case Leaf =>
    case Node(c, l, _, _, r, _) =>
      var count := if c == Black then blackCount + 1 else blackCount;
      BlackPathsMatchBalance(l, count, pathBlackCount);
      match BlackPaths(l, count, pathBlackCount)
      case None =>
      case Some(p) =>
        BlackPathsMatchBalance(r, count, p);
  }

  /** The three checks every test runs on a returned root. */
  predicate PassesTreeChecks(t: Tree) {
    && IsBlack(t)
    && BlackPaths(t, 0, -1).Some?
    && (IsRed(t) ==> !IsRed(LeftOf(t)) && !IsRed(RightOf(t)))
  }

  /** The tests' checks accept exactly the balanced trees with a black root. */
  lemma ChecksMeanBlackRootAndBalance(t: Tree)
    ensures PassesTreeChecks(t) <==> IsBlack(t) && Balanced(t)
  {
    BlackPathsMatchBalance(t, 0, -1);
  }

  /** Every tree that satisfies the invariants, as every tree `add` and `remove` return does, passes the tests' checks. */
  lemma RedBlackPassesChecks(t: Tree)
    requires IsRedBlack(t)
    ensures PassesTreeChecks(t)
  {
    ChecksMeanBlackRootAndBalance(t);
  }

  // ---------------------------------------------------------------------
  // The fixed scenarios of the test suite

  /** `empty().remove(k).add(k, v)` (the test uses 5 and "R") holds one entry; removing `k` again empties it. */
  lemma Scenario0(k: int, v: string)
    ensures var t := Add(Remove(Empty(), k), k, v);
      && Size(t) == 1 && PassesTreeChecks(t) && Get(t, k) == Some(v)
      && Size(Remove(t, k)) == 0 && PassesTreeChecks(Remove(t, k))
  {
    var t0 := Remove(Empty(), k);
    RemoveIsRedBlack(Empty(), k);
    var t1 := Add(t0, k, v);
    AddIsRedBlack(t0, k, v);
    GetAfterAdd(t0, k, v, k);
    RedBlackPassesChecks(t1);
    RemoveIsRedBlack(t1, k);
    RedBlackPassesChecks(Remove(t1, k));
  }

  /**
    `single(a, va).add(b, vb).add(c, vc).remove(d)` for distinct `a`, `b`,
    `c` and an absent `d` (the test uses 8, 6, 7 and 5): three entries, and
    removing the absent key changes nothing.
   */
  lemma Scenario1(a: int, va: string, b: int, vb: string, c: int, vc: string, d: int)
    requires a != b && a != c && b != c && d != a && d != b && d != c
    ensures var t := Remove(Add(Add(Single(a, va), b, vb), c, vc), d);
      && Size(t) == 3 && PassesTreeChecks(t)
      && Get(t, a) == Some(va) && Get(t, b) == Some(vb) && Get(t, c) == Some(vc)
  {
    var t0 := Single(a, va);
    var t1 := Add(t0, b, vb);
    AddIsRedBlack(t0, b, vb);
    var t2 := Add(t1, c, vc);
    AddIsRedBlack(t1, c, vc);
    var t3 := Remove(t2, d);
    RemoveIsRedBlack(t2, d);
    RedBlackPassesChecks(t3);
    GetMatchesContent(t3, a);
    GetMatchesContent(t3, b);
    GetMatchesContent(t3, c);
  }

  /**
    `empty().add(a, va).add(b, vb).add(c, vc).remove(b).add(a, ve)` for
    distinct keys (the test uses 8, 6 and 7): the overwrite of `a` keeps two
    entries and `b` is gone.
   */
  lemma Scenario2(a: int, va: string, b: int, vb: string, c: int, vc: string, ve: string)
    requires a != b && a != c && b != c
    ensures var t := Add(Remove(Add(Add(Add(Empty(), a, va), b, vb), c, vc), b), a, ve);
      && Size(t) == 2 && PassesTreeChecks(t)
      && Get(t, a) == Some(ve) && Get(t, c) == Some(vc) && Get(t, b) == None
  {
    var t0 := Empty();
    var t1 := Add(t0, a, va);
    AddIsRedBlack(t0, a, va);
    var t2 := Add(t1, b, vb);
    AddIsRedBlack(t1, b, vb);
    var t3 := Add(t2, c, vc);
    AddIsRedBlack(t2, c, vc);
    var t4 := Remove(t3, b);
    RemoveIsRedBlack(t3, b);
    var t5 := Add(t4, a, ve);
    AddIsRedBlack(t4, a, ve);
    RedBlackPassesChecks(t5);
    GetMatchesContent(t5, a);
    GetMatchesContent(t5, b);
    GetMatchesContent(t5, c);
  }

  // ---------------------------------------------------------------------
  // Arbitrary sequences of operations

  datatype Op = AddOp(key: int, value: string) | RemoveOp(key: int)

  /** Apply the operations left to right, as a caller chaining `add` and `remove` does. */
  function Replay(t: Tree, ops: seq<Op>): Tree
    decreases |ops|
  {
    if ops == [] then t
    else
      var next := match ops[0]
        case AddOp(k, v) => Add(t, k, v)
        case RemoveOp(k) => Remove(t, k);
      Replay(next, ops[1..])
  }

  /** The same operations on a plain map: the reference the tree must agree with. */
  ghost function ReplayMap(m: map<int, string>, ops: seq<Op>): map<int, string>
    decreases |ops|
  {
    if ops == [] then m
    else
      var next := match ops[0]
        case AddOp(k, v) => m[k := v]
        case RemoveOp(k) => m - {k};
      ReplayMap(next, ops[1..])
  }

  /**
    Whatever the operations, the tree stays a valid red-black tree, passes
    the tests' checks after every step, and maps exactly what a plain map
    fed the same operations maps.
   */
  lemma {:induction false} ReplayAgreesWithMap(t: Tree, ops: seq<Op>)
    requires IsRedBlack(t)
    ensures var r := Replay(t, ops);
      && IsRedBlack(r) && PassesTreeChecks(r)
      && Content(r) == ReplayMap(Content(t), ops)
      && Size(r) == |ReplayMap(Content(t), ops)|
    decreases |ops|
  {
    if ops == [] {
      RedBlackPassesChecks(t);
      SizeIsNumberOfKeys(t);
    } else {
      match ops[0]
      case AddOp(k, v) =>
        AddIsRedBlack(t, k, v);
        ReplayAgreesWithMap(Add(t, k, v), ops[1..]);
      case RemoveOp(k) =>
        RemoveIsRedBlack(t, k);
        ReplayAgreesWithMap(Remove(t, k), ops[1..]);
    }
  }
}

=== FILE: deletion.dfy ===
/**
  Deletion (TreeNode.removeNode, both overloads, and fixAfterDeletion):
  descend to the key, remove a node with zero, one or two children (the
  last by splicing in the in-order successor), and repair the black height
  on the way up.

  A subtree that came back one black node short carries a "super black"
  flag. The Java class stores the flag in the returned node; only the flag
  of a freshly returned subtree is ever read, so here it travels in the
  `Removal` result instead. The Java class detects an untouched subtree by
  reference equality (`fixAfterDeletion` then returns `this`); here that is
  the `Unchanged` result, and the side that changed is passed explicitly.
 */
module Deletion {
  import opened TreeNodes
  import opened Primitives

  /** The in-order successor search of the two-child case: the leftmost node of a non-empty subtree. */
  function Leftmost(t: Tree): (m: Tree)
    requires t.Node?
    ensures m.Node? && m.left.Leaf?
    ensures Ordered(t) ==> m.key in Content(t) && Content(t)[m.key] == m.value
    ensures Ordered(t) ==> forall x :: x in Content(t) ==> m.key <= x
  {
    if t.left.Leaf? then
      assert Ordered(t) ==> t.key !in Content(t.right);
      t
    else
      var m := Leftmost(t.left);
      assert Ordered(t) ==> m.key !in Content(t.right) && m.key != t.key;
      m
  }

  /** Deficiency as the Java class infers it: the flag, or an absent new child where the old one was not red. */
  predicate Deficient(before: Tree, newChild: Tree, superBlack: bool) {
    superBlack || (newChild.Leaf? && !IsRed(before))
  }

  /**
    Case 3 on the left: when only the near child of the black sibling
    `newRight` is red, rotate it up so that the sibling's far child is red.
   */
  function PrepareSiblingLeft(newRight: Tree): Tree {
    if IsBlack(RightOf(newRight)) then
      var recoloured := CopyWithColor(newRight, SetColor(LeftOf(newRight), Black), RightOf(newRight), Red);
      RotateRight(LeftOf(recoloured), recoloured)
    else newRight
  }

  /**
    Case 4 on the left: the sibling, whose far child is red, moves above
    `self` in `self`'s colour; `self` and the far child turn black.
   */
  function RotateSiblingUpLeft(self: Tree, newLeft: Tree, sibling: Tree): Tree {
    var top := CopyWithColor(sibling, LeftOf(sibling), SetColor(RightOf(sibling), Black), ColorOf(self));
    RotateLeft(top, CopyWithColor(self, newLeft, top, Black))
  }

  /** Mirror image of `PrepareSiblingLeft`: `newLeft` is the sibling of a removal on the right. */
  function PrepareSiblingRight(newLeft: Tree): Tree {
    if IsBlack(LeftOf(newLeft)) then
      var recoloured := CopyWithColor(newLeft, LeftOf(newLeft), SetColor(RightOf(newLeft), Black), Red);
      RotateLeft(RightOf(recoloured), recoloured)
    else newLeft
  }

  /** Mirror image of `RotateSiblingUpLeft`. */
  function RotateSiblingUpRight(self: Tree, sibling: Tree, newRight: Tree): Tree {
    var top := CopyWithColor(sibling, SetColor(LeftOf(sibling), Black), RightOf(sibling), ColorOf(self));
    RotateRight(top, CopyWithColor(self, top, newRight, Black))
  }

  /**
    Rebuild `self` after the child on `side` was rebuilt by a removal;
    `superBlack` is that child's flag. The old child, read for its colour,
    is still `self`'s own child on that side.
   */
  function FixAfterDeletion(self: Tree, side: Side, newLeft: Tree, newRight: Tree, superBlack: bool): (r: Removal)
    requires self.Node?
    ensures r.Changed?
    decreases Count(if side == Left then newRight else newLeft)
  {
    if side == Left then
      if !Deficient(self.left, newLeft, superBlack) then
        // nothing is missing on this level
        Changed(Copy(self, newLeft, newRight), false)
      else if IsRed(newLeft) && superBlack then
        // a red node carrying the flag turns black and makes up for it
        Changed(Copy(self, SetColor(newLeft, Black), newRight), false)
      else if IsRed(newRight) then
        // case 1: red sibling; rotate it up and repair below it
        var parent := RotateLeft(SetColor(newRight, Black), SetColor(self, Red));
        assert Count(RightOf(LeftOf(parent))) < Count(newRight);
        var inner := FixAfterDeletion(LeftOf(parent), Left, newLeft, RightOf(LeftOf(parent)), superBlack);
        FixAfterDeletion(parent, Left, inner.tree, RightOf(parent), inner.superBlack)
      else if IsBlack(LeftOf(newRight)) && IsBlack(RightOf(newRight)) then
        // case 2: recolour the sibling red and hand the flag up
        CopyWithSuperBlack(self, newLeft, SetColor(newRight, Red), true)
      else
        // cases 3 and 4: rotate the sibling up; the flag is resolved
        Changed(RotateSiblingUpLeft(self, newLeft, PrepareSiblingLeft(newRight)), false)
    else
      if !Deficient(self.right, newRight, superBlack) then
        Changed(Copy(self, newLeft, newRight), false)
      else if IsRed(newRight) && superBlack then
        Changed(Copy(self, newLeft, SetColor(newRight, Black)), false)
      else if IsRed(newLeft) then
        var parent := RotateRight(SetColor(newLeft, Black), SetColor(self, Red));
        assert Count(LeftOf(RightOf(parent))) < Count(newLeft);
        var inner := FixAfterDeletion(RightOf(parent), Right, LeftOf(RightOf(parent)), newRight, superBlack);
        FixAfterDeletion(parent, Right, LeftOf(parent), inner.tree, inner.superBlack)
      else if IsBlack(LeftOf(newLeft)) && IsBlack(RightOf(newLeft)) then
        CopyWithSuperBlack(self, SetColor(newLeft, Red), newRight, true)
      else
        Changed(RotateSiblingUpRight(self, PrepareSiblingRight(newLeft), newRight), false)
  }

  /**
    Remove `key` from a possibly absent subtree. An absent subtree, and one
    that does not hold the key, come back `Unchanged`.
   */
  function RemoveNode(t: Tree, key: int): Removal
  {
    if t.Leaf? then Unchanged
    else if t.key > key then
      match RemoveNode(t.left, key)
      case Unchanged => Unchanged
      case Changed(newLeft, superBlack) => FixAfterDeletion(t, Left, newLeft, t.right, superBlack)
    else if t.key < key then
      match RemoveNode(t.right, key)
      case Unchanged => Unchanged
      case Changed(newRight, superBlack) => FixAfterDeletion(t, Right, t.left, newRight, superBlack)
    else if t.left.Leaf? && t.right.Leaf? then
      Changed(Leaf, false)
    else if t.left.Leaf? || t.right.Leaf? then
      // splice in the only child; it is one black short iff the removed node was black
      var child := if t.left.Node? then t.left else t.right;
      CopyWithSuperBlack(child, child.left, child.right, IsBlack(t))
    else
      // the successor's entry takes this node's place, then the successor is removed
      var successor := Leftmost(t.right);
      var replaced := CopyWithColor(successor, t.left, t.right, t.color);
      match RemoveNode(t.right, successor.key)
      case Unchanged => Changed(replaced, false)
      case Changed(newRight, superBlack) => FixAfterDeletion(replaced, Right, t.left, newRight, superBlack)
  }

  // ---------------------------------------------------------------------
  // Entries, order and sizes

  /** Cases 3 and 4 on the left only rearrange the node, its new left child and its sibling. */
  lemma DeleteLeftRotationEntries(self: Tree, newLeft: Tree, newRight: Tree)
    requires self.Node? && newRight.Node?
    requires IsRed(LeftOf(newRight)) || IsRed(RightOf(newRight))
    ensures IsRebuildOf(RotateSiblingUpLeft(self, newLeft, PrepareSiblingLeft(newRight)), self, newLeft, newRight)
  {
    var sibling := PrepareSiblingLeft(newRight);
    if IsBlack(RightOf(newRight)) {
      var recoloured := CopyWithColor(newRight, SetColor(LeftOf(newRight), Black), RightOf(newRight), Red);
      SetColorKeepsEntries(newRight.left, Black);
      RotateRightKeepsEntries(recoloured.left, recoloured);
    }
    assert sibling.Node?;
    assert Inorder(sibling) == Inorder(newRight) && Content(sibling) == Content(newRight);
    assert Count(sibling) == Count(newRight) && (SizeOk(newRight) ==> SizeOk(sibling));
    SetColorKeepsEntries(sibling.right, Black);
    var top := CopyWithColor(sibling, LeftOf(sibling), SetColor(RightOf(sibling), Black), ColorOf(self));
    RotateLeftKeepsEntries(top, CopyWithColor(self, newLeft, top, Black));
    assert RotateSiblingUpLeft(self, newLeft, sibling) == RotateLeft(top, CopyWithColor(self, newLeft, top, Black));
  }

  /** Mirror image of `DeleteLeftRotationEntries`. */
  lemma DeleteRightRotationEntries(self: Tree, newLeft: Tree, newRight: Tree)
    requires self.Node? && newLeft.Node?
    requires IsRed(LeftOf(newLeft)) || IsRed(RightOf(newLeft))
    ensures IsRebuildOf(RotateSiblingUpRight(self, PrepareSiblingRight(newLeft), newRight), self, newLeft, newRight)
  {
    var sibling := PrepareSiblingRight(newLeft);
    if IsBlack(LeftOf(newLeft)) {
      var recoloured := CopyWithColor(newLeft, LeftOf(newLeft), SetColor(RightOf(newLeft), Black), Red);
      SetColorKeepsEntries(newLeft.right, Black);
      RotateLeftKeepsEntries(recoloured.right, recoloured);
    }
    assert sibling.Node?;
    assert Inorder(sibling) == Inorder(newLeft) && Content(sibling) == Content(newLeft);
    assert Count(sibling) == Count(newLeft) && (SizeOk(newLeft) ==> SizeOk(sibling));
    SetColorKeepsEntries(sibling.left, Black);
    var top := CopyWithColor(sibling, SetColor(LeftOf(sibling), Black), RightOf(sibling), ColorOf(self));
    RotateRightKeepsEntries(top, CopyWithColor(self, top, newRight, Black));
    assert RotateSiblingUpRight(self, sibling, newRight) == RotateRight(top, CopyWithColor(self, top, newRight, Black));
  }

  /** Case 1 on the left: the two nested repairs together rebuild the node, its new left child and its sibling. */
  lemma {:induction false} DeleteLeftRedSiblingEntries(self: Tree, newLeft: Tree, newRight: Tree, superBlack: bool)
    requires self.Node? && IsRed(newRight)
    ensures var parent := RotateLeft(SetColor(newRight, Black), SetColor(self, Red));
      var inner := FixAfterDeletion(LeftOf(parent), Left, newLeft, RightOf(LeftOf(parent)), superBlack);
      IsRebuildOf(FixAfterDeletion(parent, Left, inner.tree, RightOf(parent), inner.superBlack).tree,
                  self, newLeft, newRight)
    decreases Count(newRight), 0
  {
    var parent := RotateLeft(SetColor(newRight, Black), SetColor(self, Red));
    var x := LeftOf(parent);
    assert x.key == self.key && x.value == self.value && x.right == newRight.left;
    assert parent.key == newRight.key && parent.value == newRight.value;
    assert parent.left == x && parent.right == newRight.right;
    FixAfterDeletionKeepsEntries(x, Left, newLeft, newRight.left, superBlack);
    var inner := FixAfterDeletion(x, Left, newLeft, newRight.left, superBlack);
    FixAfterDeletionKeepsEntries(parent, Left, inner.tree, newRight.right, inner.superBlack);
    var a, b, c := Content(newLeft), Content(newRight.left), Content(newRight.right);
    var p, q := map[self.key := self.value], map[newRight.key := newRight.value];
    MergeAssoc(a + p, b, q);
    MergeAssoc(a + p, b + q, c);
  }

  /** Mirror image of `DeleteLeftRedSiblingEntries`. */
  lemma {:induction false} DeleteRightRedSiblingEntries(self: Tree, newLeft: Tree, newRight: Tree, superBlack: bool)
    requires self.Node? && IsRed(newLeft)
    ensures var parent := RotateRight(SetColor(newLeft, Black), SetColor(self, Red));
      var inner := FixAfterDeletion(RightOf(parent), Right, LeftOf(RightOf(parent)), newRight, superBlack);
      IsRebuildOf(FixAfterDeletion(parent, Right, LeftOf(parent), inner.tree, inner.superBlack).tree,
                  self, newLeft, newRight)
    decreases Count(newLeft), 0
  {
    var parent := RotateRight(SetColor(newLeft, Black), SetColor(self, Red));
    var y := RightOf(parent);
    assert y.key == self.key && y.value == self.value && y.left == newLeft.right;
    assert parent.key == newLeft.key && parent.value == newLeft.value;
    assert parent.right == y && parent.left == newLeft.left;
    FixAfterDeletionKeepsEntries(y, Right, newLeft.right, newRight, superBlack);
    var inner := FixAfterDeletion(y, Right, newLeft.right, newRight, superBlack);
    FixAfterDeletionKeepsEntries(parent, Right, newLeft.left, inner.tree, inner.superBlack);
    var a, b, c := Content(newLeft.left), Content(newLeft.right), Content(newRight);
    var p, q := map[self.key := self.value], map[newLeft.key := newLeft.value];
    MergeAssoc(a + q, b, p);
    MergeAssoc(a + q, b + p, c);
  }

  /** The deletion fixup only rearranges and recolours: entries, in-order keys and sizes are those of the plain rebuild. */
  lemma {:induction false} FixAfterDeletionKeepsEntries(self: Tree, side: Side, newLeft: Tree, newRight: Tree, superBlack: bool)
    requires self.Node?
    ensures IsRebuildOf(FixAfterDeletion(self, side, newLeft, newRight, superBlack).tree, self, newLeft, newRight)
    decreases Count(if side == Left then newRight else newLeft), 2
  {
    if side == Left {
      FixLeftKeepsEntries(self, newLeft, newRight, superBlack);
    } else {
      FixRightKeepsEntries(self, newLeft, newRight, superBlack);
    }
  }

  lemma {:induction false} FixLeftKeepsEntries(self: Tree, newLeft: Tree, newRight: Tree, superBlack: bool)
    requires self.Node?
    ensures IsRebuildOf(FixAfterDeletion(self, Left, newLeft, newRight, superBlack).tree, self, newLeft, newRight)
    decreases Count(newRight), 1
  {
    if !Deficient(self.left, newLeft, superBlack) {
    } else if IsRed(newLeft) && superBlack {
      SetColorKeepsEntries(newLeft, Black);
    } else if IsRed(newRight) {
      DeleteLeftRedSiblingEntries(self, newLeft, newRight, superBlack);
    } else if IsBlack(LeftOf(newRight)) && IsBlack(RightOf(newRight)) {
      SetColorKeepsEntries(newRight, Red);
    } else {
      DeleteLeftRotationEntries(self, newLeft, newRight);
    }
  }

  lemma {:induction false} FixRightKeepsEntries(self: Tree, newLeft: Tree, newRight: Tree, superBlack: bool)
    requires self.Node?
    ensures IsRebuildOf(FixAfterDeletion(self, Right, newLeft, newRight, superBlack).tree, self, newLeft, newRight)
    decreases Count(newLeft), 1
  {
    if !Deficient(self.right, newRight, superBlack) {
    } else if IsRed(newRight) && superBlack {
      SetColorKeepsEntries(newRight, Black);
    } else if IsRed(newLeft) {
      DeleteRightRedSiblingEntries(self, newLeft, newRight, superBlack);
    } else if IsBlack(LeftOf(newLeft)) && IsBlack(RightOf(newLeft)) {
      SetColorKeepsEntries(newLeft, Red);
    } else {
      DeleteRightRotationEntries(self, newLeft, newRight);
    }
  }

  /** What a removal of `key` from `t` must achieve: untouched exactly when the key is absent, else the key's entry gone and nothing else. */
  ghost predicate RemovedFrom(t: Tree, r: Removal, key: int) {
    && (r.Unchanged? <==> key !in Content(t))
    && (r.Changed? ==>
          && Ordered(r.tree) && SizeOk(r.tree)
          && Content(r.tree) == Content(t) - {key}
          && Count(r.tree) + 1 == Count(t))
  }

  lemma RemoveBeforeMerge(a: map<int, string>, b: map<int, string>, key: int)
    requires key !in b
    ensures (a - {key}) + b == (a + b) - {key}
  {
  }

  lemma RemoveAfterMerge(a: map<int, string>, b: map<int, string>, key: int)
    requires key !in a
    ensures a + (b - {key}) == (a + b) - {key}
  {
  }

  /** Splicing the successor's entry in place of a node's entry, and removing it from the right part, removes the node's key. */
  lemma SuccessorSplice(a: map<int, string>, k: int, v: string, b: map<int, string>, sk: int, sv: string)
    requires forall x :: x in a ==> x < k
    requires forall x :: x in b ==> k < x
    requires sk in b && b[sk] == sv
    ensures a + map[sk := sv] + (b - {sk}) == (a + map[k := v] + b) - {k}
  {
    var lhs := a + map[sk := sv] + (b - {sk});
    var rhs := (a + map[k := v] + b) - {k};
    assert lhs.Keys == rhs.Keys;
    forall x | x in lhs ensures lhs[x] == rhs[x] {
      if x in b {
        assert x !in a;
      }
    }
  }

  lemma RemoveLeftStep(t: Tree, key: int)
    requires t.Node? && Ordered(t) && SizeOk(t) && t.key > key
    requires RemovedFrom(t.left, RemoveNode(t.left, key), key)
    ensures RemovedFrom(t, RemoveNode(t, key), key)
  {
    assert key !in Content(t.right);
    match RemoveNode(t.left, key)
    case Unchanged =>
    case Changed(newLeft, superBlack) =>
      FixAfterDeletionKeepsEntries(t, Left, newLeft, t.right, superBlack);
      var p := map[t.key := t.value];
      RemoveBeforeMerge(Content(t.left), p, key);
      RemoveBeforeMerge(Content(t.left) + p, Content(t.right), key);
      var plain := Copy(t, newLeft, t.right);
      assert Ordered(plain);
      SameInorderSameOrder(plain, FixAfterDeletion(t, Left, newLeft, t.right, superBlack).tree);
  }

  lemma RemoveRightStep(t: Tree, key: int)
    requires t.Node? && Ordered(t) && SizeOk(t) && t.key < key
    requires RemovedFrom(t.right, RemoveNode(t.right, key), key)
    ensures RemovedFrom(t, RemoveNode(t, key), key)
  {
    assert key !in Content(t.left);
    match RemoveNode(t.right, key)
    case Unchanged =>
    case Changed(newRight, superBlack) =>
      FixAfterDeletionKeepsEntries(t, Right, t.left, newRight, superBlack);
      var p := map[t.key := t.value];
      RemoveAfterMerge(Content(t.left) + p, Content(t.right), key);
      var plain := Copy(t, t.left, newRight);
      assert Ordered(plain);
      SameInorderSameOrder(plain, FixAfterDeletion(t, Right, t.left, newRight, superBlack).tree);
  }

  /** The key sits in a node with at most one child: the node disappears, or its only child takes its place. */
  lemma RemoveSpliceStep(t: Tree, key: int)
    requires t.Node? && Ordered(t) && SizeOk(t) && t.key == key
    requires t.left.Leaf? || t.right.Leaf?
    ensures RemovedFrom(t, RemoveNode(t, key), key)
  {
    var p := map[t.key := t.value];
    if t.left.Leaf? && t.right.Leaf? {
      assert Content(t) == p;
    } else {
      var child := if t.left.Node? then t.left else t.right;
      assert RemoveNode(t, key) == CopyWithSuperBlack(child, child.left, child.right, IsBlack(t));
      assert key !in Content(child);
      assert Content(t) - {key} == Content(child) by {
        if t.left.Node? {
          assert Content(t) == Content(child) + p;
        } else {
          assert Content(t) == p + Content(child);
        }
      }
      CopyWithColorEntries(child, child.left, child.right, ColorOf(child));
      SameInorderSameOrder(child, Copy(child, child.left, child.right));
    }
  }

  /** The key sits in a node with two children: the successor's entry replaces it and the successor is removed below. */
  lemma RemoveSuccessorStep(t: Tree, key: int)
    requires t.Node? && Ordered(t) && SizeOk(t) && t.key == key
    requires t.left.Node? && t.right.Node?
    requires RemovedFrom(t.right, RemoveNode(t.right, Leftmost(t.right).key), Leftmost(t.right).key)
    ensures RemovedFrom(t, RemoveNode(t, key), key)
  {
    var successor := Leftmost(t.right);
    var replaced := CopyWithColor(successor, t.left, t.right, t.color);
    match RemoveNode(t.right, successor.key)
    case Unchanged =>
      assert false;
    case Changed(newRight, superBlack) =>
      FixAfterDeletionKeepsEntries(replaced, Right, t.left, newRight, superBlack);
      SuccessorSplice(Content(t.left), t.key, t.value, Content(t.right), successor.key, successor.value);
      var plain := Copy(replaced, t.left, newRight);
      assert Ordered(plain) by {
        forall x | x in Content(newRight) ensures successor.key < x {
          assert x in Content(t.right) && x != successor.key;
        }
      }
      SameInorderSameOrder(plain, FixAfterDeletion(replaced, Right, t.left, newRight, superBlack).tree);
  }

  /** Removal deletes exactly the key's entry, keeps order and exact sizes, and leaves a tree without the key untouched. */
  lemma {:induction false} RemoveNodeEntries(t: Tree, key: int)
    requires Ordered(t) && SizeOk(t)
    ensures RemovedFrom(t, RemoveNode(t, key), key)
  {
    if t.Leaf? {
    } else if t.key > key {
      RemoveNodeEntries(t.left, key);
      RemoveLeftStep(t, key);
    } else if t.key < key {
      RemoveNodeEntries(t.right, key);
      RemoveRightStep(t, key);
    } else if t.left.Leaf? || t.right.Leaf? {
      RemoveSpliceStep(t, key);
    } else {
      RemoveNodeEntries(t.right, Leftmost(t.right).key);
      RemoveSuccessorStep(t, key);
    }
  }

  // ---------------------------------------------------------------------
  // Red-black invariants

  /**
    What a removal hands back to the parent of a subtree whose black height
    was `target` and whose old root was `before`: a balanced tree that is
    either one black short (deficient: flagged, or an absent child where a
    black one was; only its root may then be red above a red child) or of
    full height with no red-red violation and no black root turned red.
   */
  ghost predicate Repaired(target: nat, before: Tree, r: Removal) {
    && r.Changed?
    && Balanced(r.tree)
    && var deficient := Deficient(before, r.tree, r.superBlack);
    && BlackHeight(r.tree) + (if deficient then 1 else 0) == target
    && (deficient ==> ChildrenNoRedRed(r.tree))
    && (!deficient ==> NoRedRed(r.tree) && (IsBlack(before) ==> IsBlack(r.tree)))
  }

  /** The situation the deletion fixup starts from: the edited child is repaired, its sibling is untouched and valid. */
  ghost predicate FixInput(self: Tree, side: Side, newLeft: Tree, newRight: Tree, superBlack: bool)
    requires self.Node?
  {
    var before := if side == Left then self.left else self.right;
    var edited := if side == Left then newLeft else newRight;
    var sibling := if side == Left then newRight else newLeft;
    && Balanced(sibling) && NoRedRed(sibling)
    && Repaired(BlackHeight(sibling), before, Changed(edited, superBlack))
    && (IsRed(self) ==> IsBlack(sibling) && (Deficient(before, edited, superBlack) || IsBlack(edited)))
  }

  /** What the deletion fixup promises: a repaired subtree whose full height is the sibling's plus `self`'s own black. */
  ghost predicate FixOutput(self: Tree, side: Side, newLeft: Tree, newRight: Tree, r: Removal)
    requires self.Node?
  {
    var sibling := if side == Left then newRight else newLeft;
    r.Changed? && r.tree.Node? && Repaired(BlackHeight(sibling) + (if IsBlack(self) then 1 else 0), self, r)
  }

  /** Case 1 on the left: a red sibling is rotated above `self`; two nested repairs finish the job. */
  lemma {:induction false} DeleteLeftRedSiblingBalance(self: Tree, newLeft: Tree, newRight: Tree, superBlack: bool)
    requires self.Node? && FixInput(self, Left, newLeft, newRight, superBlack)
    requires Deficient(self.left, newLeft, superBlack) && !(IsRed(newLeft) && superBlack) && IsRed(newRight)
    ensures FixOutput(self, Left, newLeft, newRight, FixAfterDeletion(self, Left, newLeft, newRight, superBlack))
    ensures var r := FixAfterDeletion(self, Left, newLeft, newRight, superBlack); !r.superBlack && IsBlack(r.tree)
    decreases Count(newRight), 0
  {
    var parent := RotateLeft(SetColor(newRight, Black), SetColor(self, Red));
    var x := LeftOf(parent);
    assert x.color == Red && x.left == self.left && x.right == newRight.left;
    assert parent.color == Black && parent.left == x && parent.right == newRight.right;
    assert BlackHeight(newRight.left) == BlackHeight(newRight) == BlackHeight(newRight.right);
    assert newRight.left.Node?;
    FixAfterDeletionBalance(x, Left, newLeft, newRight.left, superBlack);
    // The inner sibling is black, so the inner repair is case 2 (flagged, red root) or cases 3 and 4 (unflagged).
    if IsBlack(LeftOf(newRight.left)) && IsBlack(RightOf(newRight.left)) {
      DeleteLeftRecolourBalance(x, newLeft, newRight.left, superBlack);
    } else {
      DeleteLeftRotationBalance(x, newLeft, newRight.left, superBlack);
    }
    var inner := FixAfterDeletion(x, Left, newLeft, newRight.left, superBlack);
    FixAfterDeletionBalance(parent, Left, inner.tree, newRight.right, inner.superBlack);
  }

  /** Case 2 on the left: a black sibling with black children turns red and the shortfall moves up. */
  lemma DeleteLeftRecolourBalance(self: Tree, newLeft: Tree, newRight: Tree, superBlack: bool)
    requires self.Node? && FixInput(self, Left, newLeft, newRight, superBlack)
    requires Deficient(self.left, newLeft, superBlack) && !(IsRed(newLeft) && superBlack) && !IsRed(newRight)
    requires IsBlack(LeftOf(newRight)) && IsBlack(RightOf(newRight))
    ensures FixOutput(self, Left, newLeft, newRight, FixAfterDeletion(self, Left, newLeft, newRight, superBlack))
    ensures FixAfterDeletion(self, Left, newLeft, newRight, superBlack).superBlack
  {
    assert newRight.Node?;
    SetColorKeepsEntries(newRight, Red);
  }

  /** Case 3 on the left: a sibling whose red child is only the near one is rotated so that its far child is red. */
  lemma DeleteLeftSiblingPrepared(newRight: Tree)
    requires newRight.Node? && IsBlack(newRight) && NoRedRed(newRight) && Balanced(newRight)
    requires !(IsBlack(LeftOf(newRight)) && IsBlack(RightOf(newRight)))
    ensures var sibling := PrepareSiblingLeft(newRight);
      && sibling.Node? && IsBlack(sibling) && IsRed(sibling.right)
      && NoRedRed(sibling) && Balanced(sibling) && BlackHeight(sibling) == BlackHeight(newRight)
  {
    if IsBlack(RightOf(newRight)) {
      var b := BlackHeight(newRight);
      var recoloured := CopyWithColor(newRight, SetColor(LeftOf(newRight), Black), RightOf(newRight), Red);
      var sibling := RotateRight(LeftOf(recoloured), recoloured);
      var sl := newRight.left;
      assert sibling.color == Black && sibling.left == sl.left;
      assert sibling.right.color == Red && sibling.right.left == sl.right && sibling.right.right == newRight.right;
      assert NoRedRed(sl) && IsBlack(sl.left) && IsBlack(sl.right) && NoRedRed(newRight.right);
      assert NoRedRed(sibling.left) && NoRedRed(sibling.right);
      assert Balanced(sl) && IsRed(sl) && BlackHeight(sl) == BlackHeight(sl.left) == b - 1;
      assert BlackHeight(newRight.right) == b - 1;
      assert BlackHeight(sl.left) == b - 1 && BlackHeight(sl.right) == b - 1;
      assert BlackHeight(sibling.right) == BlackHeight(sl.right);
    }
  }

  /** Case 4 on the left: a black sibling with a red far child is rotated above `self`, which makes up the missing black. */
  lemma DeleteLeftOuterRotation(self: Tree, newLeft: Tree, sibling: Tree)
    requires self.Node? && sibling.Node? && IsBlack(sibling) && IsRed(sibling.right)
    requires NoRedRed(sibling) && Balanced(sibling)
    requires IsBlack(newLeft) && NoRedRed(newLeft) && Balanced(newLeft)
    requires BlackHeight(newLeft) + 1 == BlackHeight(sibling)
    ensures var r := RotateSiblingUpLeft(self, newLeft, sibling);
      && r.Node? && ColorOf(r) == ColorOf(self) && Balanced(r) && NoRedRed(r)
      && BlackHeight(r) == BlackHeight(sibling) + (if IsBlack(self) then 1 else 0)
  {
    var b := BlackHeight(sibling);
    var top := CopyWithColor(sibling, LeftOf(sibling), SetColor(RightOf(sibling), Black), ColorOf(self));
    var r := RotateLeft(top, CopyWithColor(self, newLeft, top, Black));
    assert r.color == self.color && r.right == SetColor(sibling.right, Black);
    assert r.left.color == Black && r.left.left == newLeft && r.left.right == sibling.left;
    assert BlackHeight(sibling.left) == b - 1 == BlackHeight(sibling.right) == BlackHeight(newLeft);
    assert NoRedRed(sibling.left) && NoRedRed(sibling.right);
    assert ChildrenNoRedRed(sibling.right);
    SetColorKeepsEntries(sibling.right, Black);
    assert NoRedRed(r.left) && NoRedRed(r.right);
  }

  /** Cases 3 and 4 on the left: a black sibling with a red child is rotated up and the shortfall is resolved. */
  lemma DeleteLeftRotationBalance(self: Tree, newLeft: Tree, newRight: Tree, superBlack: bool)
    requires self.Node? && FixInput(self, Left, newLeft, newRight, superBlack)
    requires Deficient(self.left, newLeft, superBlack) && !(IsRed(newLeft) && superBlack) && !IsRed(newRight)
    requires !(IsBlack(LeftOf(newRight)) && IsBlack(RightOf(newRight)))
    ensures FixOutput(self, Left, newLeft, newRight, FixAfterDeletion(self, Left, newLeft, newRight, superBlack))
    ensures var r := FixAfterDeletion(self, Left, newLeft, newRight, superBlack); !r.superBlack && ColorOf(r.tree) == ColorOf(self)
  {
    assert newRight.Node?;
    DeleteLeftSiblingPrepared(newRight);
    var sibling := PrepareSiblingLeft(newRight);
    assert IsBlack(newLeft) && NoRedRed(newLeft);
    DeleteLeftOuterRotation(self, newLeft, sibling);
  }

  lemma {:induction false} FixLeftBalance(self: Tree, newLeft: Tree, newRight: Tree, superBlack: bool)
    requires self.Node? && FixInput(self, Left, newLeft, newRight, superBlack)
    ensures FixOutput(self, Left, newLeft, newRight, FixAfterDeletion(self, Left, newLeft, newRight, superBlack))
    decreases Count(newRight), 1
  {
    if !Deficient(self.left, newLeft, superBlack) {
    } else if IsRed(newLeft) && superBlack {
      SetColorKeepsEntries(newLeft, Black);
    } else if IsRed(newRight) {
      DeleteLeftRedSiblingBalance(self, newLeft, newRight, superBlack);
    } else if IsBlack(LeftOf(newRight)) && IsBlack(RightOf(newRight)) {
      DeleteLeftRecolourBalance(self, newLeft, newRight, superBlack);
    } else {
      DeleteLeftRotationBalance(self, newLeft, newRight, superBlack);
    }
  }

  /** Mirror image of `DeleteLeftRedSiblingBalance`. */
  lemma {:induction false} DeleteRightRedSiblingBalance(self: Tree, newLeft: Tree, newRight: Tree, superBlack: bool)
    requires self.Node? && FixInput(self, Right, newLeft, newRight, superBlack)
    requires Deficient(self.right, newRight, superBlack) && !(IsRed(newRight) && superBlack) && IsRed(newLeft)
    ensures FixOutput(self, Right, newLeft, newRight, FixAfterDeletion(self, Right, newLeft, newRight, superBlack))
    ensures var r := FixAfterDeletion(self, Right, newLeft, newRight, superBlack); !r.superBlack && IsBlack(r.tree)
    decreases Count(newLeft), 0
  {
    var parent := RotateRight(SetColor(newLeft, Black), SetColor(self, Red));
    var y := RightOf(parent);
    assert y.color == Red && y.right == self.right && y.left == newLeft.right;
    assert parent.color == Black && parent.right == y && parent.left == newLeft.left;
    assert BlackHeight(newLeft.left) == BlackHeight(newLeft) == BlackHeight(newLeft.right);
    assert newLeft.right.Node?;
    FixAfterDeletionBalance(y, Right, newLeft.right, newRight, superBlack);
    if IsBlack(LeftOf(newLeft.right)) && IsBlack(RightOf(newLeft.right)) {
      DeleteRightRecolourBalance(y, newLeft.right, newRight, superBlack);
    } else {
      DeleteRightRotationBalance(y, newLeft.right, newRight, superBlack);
    }
    var inner := FixAfterDeletion(y, Right, newLeft.right, newRight, superBlack);
    FixAfterDeletionBalance(parent, Right, newLeft.left, inner.tree, inner.superBlack);
  }

  /** Mirror image of `DeleteLeftRecolourBalance`. */
  lemma DeleteRightRecolourBalance(self: Tree, newLeft: Tree, newRight: Tree, superBlack: bool)
    requires self.Node? && FixInput(self, Right, newLeft, newRight, superBlack)
    requires Deficient(self.right, newRight, superBlack) && !(IsRed(newRight) && superBlack) && !IsRed(newLeft)
    requires IsBlack(LeftOf(newLeft)) && IsBlack(RightOf(newLeft))
    ensures FixOutput(self, Right, newLeft, newRight, FixAfterDeletion(self, Right, newLeft, newRight, superBlack))
    ensures FixAfterDeletion(self, Right, newLeft, newRight, superBlack).superBlack
  {
    assert newLeft.Node?;
    SetColorKeepsEntries(newLeft, Red);
  }

  /** Mirror image of `DeleteLeftSiblingPrepared`. */
  lemma DeleteRightSiblingPrepared(newLeft: Tree)
    requires newLeft.Node? && IsBlack(newLeft) && NoRedRed(newLeft) && Balanced(newLeft)
    requires !(IsBlack(LeftOf(newLeft)) && IsBlack(RightOf(newLeft)))
    ensures var sibling := PrepareSiblingRight(newLeft);
      && sibling.Node? && IsBlack(sibling) && IsRed(sibling.left)
      && NoRedRed(sibling) && Balanced(sibling) && BlackHeight(sibling) == BlackHeight(newLeft)
  {
    if IsBlack(LeftOf(newLeft)) {
      var b := BlackHeight(newLeft);
      var recoloured := CopyWithColor(newLeft, LeftOf(newLeft), SetColor(RightOf(newLeft), Black), Red);
      var sibling := RotateLeft(RightOf(recoloured), recoloured);
      var sr := newLeft.right;
      assert sibling.color == Black && sibling.right == sr.right;
      assert sibling.left.color == Red && sibling.left.right == sr.left && sibling.left.left == newLeft.left;
      assert NoRedRed(sr) && IsBlack(sr.left) && IsBlack(sr.right) && NoRedRed(newLeft.left);
      assert NoRedRed(sibling.left) && NoRedRed(sibling.right);
      assert Balanced(sr) && IsRed(sr) && BlackHeight(sr) == BlackHeight(sr.left);
      assert BlackHeight(sr) == BlackHeight(newLeft.left) == b - 1;
      assert BlackHeight(sr.left) == b - 1 && BlackHeight(sr.right) == b - 1;
      assert BlackHeight(sibling.left) == BlackHeight(newLeft.left);
    }
  }

  /** Mirror image of `DeleteLeftOuterRotation`. */
  lemma DeleteRightOuterRotation(self: Tree, newRight: Tree, sibling: Tree)
    requires self.Node? && sibling.Node? && IsBlack(sibling) && IsRed(sibling.left)
    requires NoRedRed(sibling) && Balanced(sibling)
    requires IsBlack(newRight) && NoRedRed(newRight) && Balanced(newRight)
    requires BlackHeight(newRight) + 1 == BlackHeight(sibling)
    ensures var r := RotateSiblingUpRight(self, sibling, newRight);
      && r.Node? && ColorOf(r) == ColorOf(self) && Balanced(r) && NoRedRed(r)
      && BlackHeight(r) == BlackHeight(sibling) + (if IsBlack(self) then 1 else 0)
  {
    var b := BlackHeight(sibling);
    var top := CopyWithColor(sibling, SetColor(LeftOf(sibling), Black), RightOf(sibling), ColorOf(self));
    var r := RotateRight(top, CopyWithColor(self, top, newRight, Black));
    assert r.color == self.color && r.left == SetColor(sibling.left, Black);
    assert r.right.color == Black && r.right.right == newRight && r.right.left == sibling.right;
    assert BlackHeight(sibling.left) == b - 1 == BlackHeight(sibling.right) == BlackHeight(newRight);
    assert NoRedRed(sibling.left) && NoRedRed(sibling.right);
    assert ChildrenNoRedRed(sibling.left);
    SetColorKeepsEntries(sibling.left, Black);
    assert NoRedRed(r.left) && NoRedRed(r.right);
  }

  /** Mirror image of `DeleteLeftRotationBalance`. */
  lemma DeleteRightRotationBalance(self: Tree, newLeft: Tree, newRight: Tree, superBlack: bool)
    requires self.Node? && FixInput(self, Right, newLeft, newRight, superBlack)
    requires Deficient(self.right, newRight, superBlack) && !(IsRed(newRight) && superBlack) && !IsRed(newLeft)
    requires !(IsBlack(LeftOf(newLeft)) && IsBlack(RightOf(newLeft)))
    ensures FixOutput(self, Right, newLeft, newRight, FixAfterDeletion(self, Right, newLeft, newRight, superBlack))
    ensures var r := FixAfterDeletion(self, Right, newLeft, newRight, superBlack); !r.superBlack && ColorOf(r.tree) == ColorOf(self)
  {
    assert newLeft.Node?;
    DeleteRightSiblingPrepared(newLeft);
    var sibling := PrepareSiblingRight(newLeft);
    assert IsBlack(newRight) && NoRedRed(newRight);
    DeleteRightOuterRotation(self, newRight, sibling);
  }

  lemma {:induction false} FixRightBalance(self: Tree, newLeft: Tree, newRight: Tree, superBlack: bool)
    requires self.Node? && FixInput(self, Right, newLeft, newRight, superBlack)
    ensures FixOutput(self, Right, newLeft, newRight, FixAfterDeletion(self, Right, newLeft, newRight, superBlack))
    decreases Count(newLeft), 1
  {
    if !Deficient(self.right, newRight, superBlack) {
    } else if IsRed(newRight) && superBlack {
      SetColorKeepsEntries(newRight, Black);
      assert BlackHeight(SetColor(newRight, Black)) == BlackHeight(newRight) + 1;
    } else if IsRed(newLeft) {
      DeleteRightRedSiblingBalance(self, newLeft, newRight, superBlack);
    } else if IsBlack(LeftOf(newLeft)) && IsBlack(RightOf(newLeft)) {
      DeleteRightRecolourBalance(self, newLeft, newRight, superBlack);
    } else {
      DeleteRightRotationBalance(self, newLeft, newRight, superBlack);
    }
  }

  /** The deletion fixup turns a repaired child and a valid sibling into a repaired subtree. */
  lemma {:induction false} FixAfterDeletionBalance(self: Tree, side: Side, newLeft: Tree, newRight: Tree, superBlack: bool)
    requires self.Node? && FixInput(self, side, newLeft, newRight, superBlack)
    ensures FixOutput(self, side, newLeft, newRight, FixAfterDeletion(self, side, newLeft, newRight, superBlack))
    decreases Count(if side == Left then newRight else newLeft), 2
  {
    if side == Left {
      FixLeftBalance(self, newLeft, newRight, superBlack);
    } else {
      FixRightBalance(self, newLeft, newRight, superBlack);
    }
  }

  lemma RemoveLeftBalance(t: Tree, key: int)
    requires t.Node? && NoRedRed(t) && Balanced(t) && t.key > key
    requires var r := RemoveNode(t.left, key); r.Unchanged? || Repaired(BlackHeight(t.left), t.left, r)
    ensures var r := RemoveNode(t, key); r.Unchanged? || Repaired(BlackHeight(t), t, r)
  {
    match RemoveNode(t.left, key)
    case Unchanged =>
    case Changed(newLeft, superBlack) =>
      FixAfterDeletionBalance(t, Left, newLeft, t.right, superBlack);
  }

  lemma RemoveRightBalance(t: Tree, key: int)
    requires t.Node? && NoRedRed(t) && Balanced(t) && t.key < key
    requires var r := RemoveNode(t.right, key); r.Unchanged? || Repaired(BlackHeight(t.right), t.right, r)
    ensures var r := RemoveNode(t, key); r.Unchanged? || Repaired(BlackHeight(t), t, r)
  {
    match RemoveNode(t.right, key)
    case Unchanged =>
    case Changed(newRight, superBlack) =>
      FixAfterDeletionBalance(t, Right, t.left, newRight, superBlack);
  }

  lemma RemoveSpliceBalance(t: Tree, key: int)
    requires t.Node? && NoRedRed(t) && Balanced(t) && t.key == key
    requires t.left.Leaf? || t.right.Leaf?
    ensures Repaired(BlackHeight(t), t, RemoveNode(t, key))
  {
    if t.left.Node? || t.right.Node? {
      var child := if t.left.Node? then t.left else t.right;
      assert BlackHeight(child) == BlackHeight(t.left);
    }
  }

  lemma RemoveSuccessorBalance(t: Tree, key: int)
    requires t.Node? && NoRedRed(t) && Balanced(t) && t.key == key
    requires t.left.Node? && t.right.Node?
    requires var r := RemoveNode(t.right, Leftmost(t.right).key);
      r.Unchanged? || Repaired(BlackHeight(t.right), t.right, r)
    ensures Repaired(BlackHeight(t), t, RemoveNode(t, key))
  {
    var successor := Leftmost(t.right);
    var replaced := CopyWithColor(successor, t.left, t.right, t.color);
    match RemoveNode(t.right, successor.key)
    case Unchanged =>
    case Changed(newRight, superBlack) =>
      FixAfterDeletionBalance(replaced, Right, t.left, newRight, superBlack);
  }

  /**
    Removal from a subtree with no red-red violation and uniform black
    height yields a repaired subtree: of equal black height, or one short
    (flagged, or an absent child where a black one was).
   */
  lemma {:induction false} RemoveNodeBalance(t: Tree, key: int)
    requires NoRedRed(t) && Balanced(t)
    ensures var r := RemoveNode(t, key); r.Unchanged? || Repaired(BlackHeight(t), t, r)
  {
    if t.Leaf? {
    } else if t.key > key {
      RemoveNodeBalance(t.left, key);
      RemoveLeftBalance(t, key);
    } else if t.key < key {
      RemoveNodeBalance(t.right, key);
      RemoveRightBalance(t, key);
    } else if t.left.Leaf? || t.right.Leaf? {
      RemoveSpliceBalance(t, key);
    } else {
      RemoveNodeBalance(t.right, Leftmost(t.right).key);
      RemoveSuccessorBalance(t, key);
    }
  }
}

=== FILE: insertion.dfy ===
/**
  Insertion (TreeNode.addNode, addIntoChildNode, fixAfterInsertion): descend
  to the key, rebuild the path back up, and resolve red-red violations on
  the way up.

  The Java class tells which child was rebuilt by reference comparison with
  the old child (`newLeft != left`). Every insertion allocates a fresh child,
  so the answer is always the side the recursion went into; here that side
  is passed explicitly.
 */
module Insertion {
  import opened TreeNodes
  import opened Primitives

  /** Rebuild `self` above its children after the child on `side` received an insertion. */
  function FixAfterInsertion(self: Tree, side: Side, newLeft: Tree, newRight: Tree): (r: Tree)
    requires self.Node?
    ensures (if side == Left then newLeft else newRight).Node? ==> r.Node?
  {
    if side == Left then
      // the colour test reads the OLD left child
      if IsBlack(self.left) then Copy(self, newLeft, newRight)
      else if IsRed(newRight) then
        CopyWithColor(self, SetColor(newLeft, Black), SetColor(newRight, Black), Red)
      else
        var currentLeft :=
          if IsRed(RightOf(newLeft)) then RotateLeft(RightOf(newLeft), newLeft) else newLeft;
        RotateRight(SetColor(currentLeft, Black), SetColor(self, Red))
    else
      if IsBlack(self.right) then Copy(self, newLeft, newRight)
      else if IsRed(newLeft) then
        CopyWithColor(self, SetColor(newLeft, Black), SetColor(newRight, Black), Red)
      else
        var currentRight :=
          if IsRed(LeftOf(newRight)) then RotateRight(LeftOf(newRight), newRight) else newRight;
        RotateLeft(SetColor(currentRight, Black), SetColor(self, Red))
  }

  /** Insert below an existing node; an equal key gets the new value in a fresh copy of the node. */
  function AddNode(t: Tree, key: int, value: string): (r: Tree)
    requires t.Node?
    ensures r.Node?
    decreases t, 0
  {
    if t.key > key then FixAfterInsertion(t, Left, AddIntoChildNode(t.left, key, value), t.right)
    else if t.key < key then FixAfterInsertion(t, Right, t.left, AddIntoChildNode(t.right, key, value))
    else Node(t.color, t.left, key, value, t.right, t.size)
  }

  /** Insert into a possibly absent child: an absent child becomes a new red node. */
  function AddIntoChildNode(t: Tree, key: int, value: string): (r: Tree)
    ensures r.Node?
    decreases t, 1
  {
    if t.Leaf? then NewNode(key, value) else AddNode(t, key, value)
  }

  // ---------------------------------------------------------------------
  // Entries, order and sizes

  lemma InsertLeftRotationEntries(self: Tree, newLeft: Tree)
    requires self.Node? && newLeft.Node?
    requires !IsBlack(self.left) && !IsRed(self.right)
    ensures IsRebuildOf(FixAfterInsertion(self, Left, newLeft, self.right), self, newLeft, self.right)
  {
    var currentLeft :=
      if IsRed(RightOf(newLeft)) then RotateLeft(RightOf(newLeft), newLeft) else newLeft;
    if IsRed(RightOf(newLeft)) {
      RotateLeftKeepsEntries(newLeft.right, newLeft);
    }
    SetColorKeepsEntries(currentLeft, Black);
    RotateRightKeepsEntries(SetColor(currentLeft, Black), SetColor(self, Red));
  }

  lemma InsertRightRotationEntries(self: Tree, newRight: Tree)
    requires self.Node? && newRight.Node?
    requires !IsBlack(self.right) && !IsRed(self.left)
    ensures IsRebuildOf(FixAfterInsertion(self, Right, self.left, newRight), self, self.left, newRight)
  {
    var currentRight :=
      if IsRed(LeftOf(newRight)) then RotateRight(LeftOf(newRight), newRight) else newRight;
    if IsRed(LeftOf(newRight)) {
      RotateRightKeepsEntries(newRight.left, newRight);
    }
    SetColorKeepsEntries(currentRight, Black);
    RotateLeftKeepsEntries(SetColor(currentRight, Black), SetColor(self, Red));
  }

  /** The fixup only rearranges and recolours: entries, in-order keys and sizes are those of the plain rebuild. */
  lemma FixAfterInsertionKeepsEntries(self: Tree, side: Side, newLeft: Tree, newRight: Tree)
    requires self.Node?
    requires side == Left ==> newLeft.Node? && newRight == self.right
    requires side == Right ==> newRight.Node? && newLeft == self.left
    ensures IsRebuildOf(FixAfterInsertion(self, side, newLeft, newRight), self, newLeft, newRight)
  {
    if side == Left {
      if IsBlack(self.left) || IsRed(newRight) {
        SetColorKeepsEntries(newLeft, Black);
        SetColorKeepsEntries(newRight, Black);
      } else {
        InsertLeftRotationEntries(self, newLeft);
      }
    } else {
      if IsBlack(self.right) || IsRed(newLeft) {
        SetColorKeepsEntries(newLeft, Black);
        SetColorKeepsEntries(newRight, Black);
      } else {
        InsertRightRotationEntries(self, newRight);
      }
    }
  }

  /** `r` is `t` with `value` stored under `key`: ordered, exactly sized, one node more iff the key is new. */
  ghost predicate AddedTo(t: Tree, r: Tree, key: int, value: string) {
    && Ordered(r) && SizeOk(r)
    && Content(r) == Content(t)[key := value]
    && Count(r) == Count(t) + (if key in Content(t) then 0 else 1)
  }

  lemma AddLeftStep(t: Tree, key: int, value: string)
    requires t.Node? && t.key > key && Ordered(t) && SizeOk(t)
    requires AddedTo(t.left, AddIntoChildNode(t.left, key, value), key, value)
    ensures AddedTo(t, AddNode(t, key, value), key, value)
  {
    var l, k, v, rt := t.left, t.key, t.value, t.right;
    var entry := map[k := v];
    var r := AddNode(t, key, value);
    var nl := AddIntoChildNode(l, key, value);
    FixAfterInsertionKeepsEntries(t, Left, nl, rt);
    assert key !in entry && key !in Content(rt);
    assert Content(r) == Content(t)[key := value] by {
      UpdateBeforeMerge(Content(l), entry, key, value);
      UpdateBeforeMerge(Content(l) + entry, Content(rt), key, value);
    }
    assert key in Content(t) <==> key in Content(l);
    var plain := Copy(t, nl, rt);
    assert Ordered(plain);
    SameInorderSameOrder(r, plain);
  }

  lemma AddRightStep(t: Tree, key: int, value: string)
    requires t.Node? && t.key < key && Ordered(t) && SizeOk(t)
    requires AddedTo(t.right, AddIntoChildNode(t.right, key, value), key, value)
    ensures AddedTo(t, AddNode(t, key, value), key, value)
  {
    var l, k, v, rt := t.left, t.key, t.value, t.right;
    var entry := map[k := v];
    var r := AddNode(t, key, value);
    var nr := AddIntoChildNode(rt, key, value);
    FixAfterInsertionKeepsEntries(t, Right, l, nr);
    assert Content(r) == Content(t)[key := value] by {
      UpdateAfterMerge(Content(l) + entry, Content(rt), key, value);
    }
    assert key !in entry && key !in Content(l);
    assert key in Content(t) <==> key in Content(rt);
    var plain := Copy(t, l, nr);
    assert Ordered(plain);
    SameInorderSameOrder(r, plain);
  }

  lemma AddOverwriteStep(t: Tree, key: int, value: string)
    requires t.Node? && t.key == key && Ordered(t) && SizeOk(t)
    ensures AddedTo(t, AddNode(t, key, value), key, value)
  {
    var l, rt := t.left, t.right;
    var r := AddNode(t, key, value);
    assert r == Node(t.color, l, key, value, rt, t.size);
    assert key !in Content(rt);
    assert Content(r) == Content(t)[key := value] by {
      UpdateAfterMerge(Content(l), map[key := t.value], key, value);
      UpdateBeforeMerge(Content(l) + map[key := t.value], Content(rt), key, value);
    }
    assert key in Content(t);
    assert Ordered(r);
    assert SizeOk(r);
  }

  /** Insertion stores `value` under `key`, keeps every other entry, and keeps order and sizes exact. */
  lemma {:induction false} AddIntoChildNodeEntries(t: Tree, key: int, value: string)
    requires Ordered(t) && SizeOk(t)
    ensures AddedTo(t, AddIntoChildNode(t, key, value), key, value)
    decreases t
  {
    if t.Node? {
      if t.key > key {
        AddIntoChildNodeEntries(t.left, key, value);
        AddLeftStep(t, key, value);
      } else if t.key < key {
        AddIntoChildNodeEntries(t.right, key, value);
        AddRightStep(t, key, value);
      } else {
        AddOverwriteStep(t, key, value);
      }
    }
  }

  // ---------------------------------------------------------------------
  // Red-black invariants

  /**
    What an insertion into the red-black subtree `before` hands back to the
    parent: same black height, uniform black height, and at most one red-red
    violation, between a red root (where `before` was red) and one of its children.
   */
  ghost predicate RedBlackAfterInsert(before: Tree, r: Tree) {
    && r.Node? && Balanced(r) && BlackHeight(r) == BlackHeight(before)
    && (IsBlack(before) ==> NoRedRed(r))
    && (IsRed(before) ==> IsRed(r) && ChildrenNoRedRed(r) && (IsBlack(r.left) || IsBlack(r.right)))
  }

  /** Case 2 then 3 on the left: the red-red pair leans inwards, so rotate twice. */
  lemma InsertLeftDoubleRotation(self: Tree, newLeft: Tree)
    requires self.Node? && NoRedRed(self) && Balanced(self)
    requires RedBlackAfterInsert(self.left, newLeft)
    requires IsRed(self.left) && IsBlack(self.right) && IsRed(RightOf(newLeft))
    ensures RedBlackAfterInsert(self, FixAfterInsertion(self, Left, newLeft, self.right))
  {
    var r := FixAfterInsertion(self, Left, newLeft, self.right);
    var x := newLeft.right;
    assert IsBlack(newLeft.left);
    var h := BlackHeight(newLeft);
    assert BlackHeight(newLeft.left) == h && BlackHeight(x) == h;
    assert Balanced(x) && IsRed(x);
    assert BlackHeight(x.left) == h && BlackHeight(x.right) == h;
    var c := SetColor(RotateLeft(x, newLeft), Black);
    assert c.left.left == newLeft.left && c.left.right == x.left && c.right == x.right;
    assert r.color == Black && r.left == c.left && r.right.left == x.right && r.right.right == self.right;
    assert IsRed(r.left) && IsRed(r.right);
    assert Balanced(r.left) && Balanced(r.right);
    assert NoRedRed(r.left) && NoRedRed(r.right);
  }

  /** Case 3 on the left: the red-red pair leans outwards, so rotate once. */
  lemma InsertLeftSingleRotation(self: Tree, newLeft: Tree)
    requires self.Node? && NoRedRed(self) && Balanced(self)
    requires RedBlackAfterInsert(self.left, newLeft)
    requires IsRed(self.left) && IsBlack(self.right) && !IsRed(RightOf(newLeft))
    ensures RedBlackAfterInsert(self, FixAfterInsertion(self, Left, newLeft, self.right))
  {
  }

  lemma FixAfterInsertionLeftBalance(self: Tree, newLeft: Tree)
    requires self.Node? && NoRedRed(self) && Balanced(self)
    requires RedBlackAfterInsert(self.left, newLeft)
    ensures RedBlackAfterInsert(self, FixAfterInsertion(self, Left, newLeft, self.right))
  {
    if IsBlack(self.left) {
    } else if IsRed(self.right) {
    } else if IsRed(RightOf(newLeft)) {
      InsertLeftDoubleRotation(self, newLeft);
    } else {
      InsertLeftSingleRotation(self, newLeft);
    }
  }

  /** Mirror image of `InsertLeftDoubleRotation`. */
  lemma InsertRightDoubleRotation(self: Tree, newRight: Tree)
    requires self.Node? && NoRedRed(self) && Balanced(self)
    requires RedBlackAfterInsert(self.right, newRight)
    requires IsRed(self.right) && IsBlack(self.left) && IsRed(LeftOf(newRight))
    ensures RedBlackAfterInsert(self, FixAfterInsertion(self, Right, self.left, newRight))
  {
    var r := FixAfterInsertion(self, Right, self.left, newRight);
    var x := newRight.left;
    assert IsBlack(newRight.right);
    var h := BlackHeight(newRight);
    assert BlackHeight(newRight.right) == h && BlackHeight(x) == h;
    assert Balanced(x) && IsRed(x);
    assert BlackHeight(x.left) == h && BlackHeight(x.right) == h;
    var c := SetColor(RotateRight(x, newRight), Black);
    assert c.right.right == newRight.right && c.right.left == x.right && c.left == x.left;
    assert r.color == Black && r.right == c.right && r.left.right == x.left && r.left.left == self.left;
    assert IsRed(r.left) && IsRed(r.right);
    assert Balanced(r.left) && Balanced(r.right);
    assert NoRedRed(r.left) && NoRedRed(r.right);
  }

  /** Mirror image of `InsertLeftSingleRotation`. */
  lemma InsertRightSingleRotation(self: Tree, newRight: Tree)
    requires self.Node? && NoRedRed(self) && Balanced(self)
    requires RedBlackAfterInsert(self.right, newRight)
    requires IsRed(self.right) && IsBlack(self.left) && !IsRed(LeftOf(newRight))
    ensures RedBlackAfterInsert(self, FixAfterInsertion(self, Right, self.left, newRight))
  {
  }

  lemma FixAfterInsertionRightBalance(self: Tree, newRight: Tree)
    requires self.Node? && NoRedRed(self) && Balanced(self)
    requires RedBlackAfterInsert(self.right, newRight)
    ensures RedBlackAfterInsert(self, FixAfterInsertion(self, Right, self.left, newRight))
  {
    if IsBlack(self.right) {
    } else if IsRed(self.left) {
    } else if IsRed(LeftOf(newRight)) {
      InsertRightDoubleRotation(self, newRight);
    } else {
      InsertRightSingleRotation(self, newRight);
    }
  }

  /** Insertion into a red-black subtree keeps its black height and leaves at most a root-level violation. */
  lemma {:induction false} AddIntoChildNodeBalance(t: Tree, key: int, value: string)
    requires NoRedRed(t) && Balanced(t)
    ensures RedBlackAfterInsert(t, AddIntoChildNode(t, key, value))
    decreases t
  {
    if t.Node? {
      if t.key > key {
        AddIntoChildNodeBalance(t.left, key, value);
        FixAfterInsertionLeftBalance(t, AddIntoChildNode(t.left, key, value));
      } else if t.key < key {
        AddIntoChildNodeBalance(t.right, key, value);
        FixAfterInsertionRightBalance(t, AddIntoChildNode(t.right, key, value));
      }
    }
  }
}

=== FILE: lookup.dfy ===
/** Ordered binary search over the immutable tree (TreeNode.get). */
module Lookup {
  import opened TreeNodes

  datatype Option<T> = None | Some(value: T)

  /** The value mapped to `key`, or `None` where the Java method returns null. */
  function Get(t: Tree, key: int): Option<string> {
    match t
    case Leaf => None
    case Node(_, l, k, v, r, _) =>
      if k == key then Some(v)
      else if k > key then Get(l, key)
      else Get(r, key)
  }

  /** On an ordered tree the binary search finds exactly the entries of its contents. */
  lemma {:induction false} GetMatchesContent(t: Tree, key: int)
    requires Ordered(t)
    ensures Get(t, key) == if key in Content(t) then Some(Content(t)[key]) else None
  {
    match t
    case Leaf =>
    case Node(_, l, k, v, r, _) =>
      assert key !in Content(r) || k < key;
      assert key !in Content(l) || key < k;
      if k > key {
        GetMatchesContent(l, key);
      } else if k < key {
        GetMatchesContent(r, key);
      }
  }
}

=== FILE: primitives.dfy ===
/**
  The rebuild primitives of TreeNode.java: every one allocates fresh nodes
  and recomputes the cached size from the new children; none changes an
  existing node. An absent source yields an absent result, as the Java
  null checks do.
 */
module Primitives {
  import opened TreeNodes

  /** A fresh red node without children: the leaf an insertion adds. */
  function NewNode(key: int, value: string): (r: Tree)
    ensures IsRed(r) && Content(r) == map[key := value] && Inorder(r) == [key]
    ensures SizeOk(r) && NoRedRed(r) && Balanced(r) && BlackHeight(r) == 0
  {
    Node(Red, Leaf, key, value, Leaf, 1)
  }

  /** The same node with another colour; the cached size is copied. */
  function SetColor(t: Tree, c: Color): Tree {
    if t.Leaf? then Leaf else Node(c, t.left, t.key, t.value, t.right, t.size)
  }

  /** The entry of `src` above new children, with an explicit colour and a recomputed size. */
  function CopyWithColor(src: Tree, newLeft: Tree, newRight: Tree, c: Color): Tree {
    if src.Leaf? then Leaf
    else Node(c, newLeft, src.key, src.value, newRight, SizeOf(newLeft) + SizeOf(newRight) + 1)
  }

  /** The entry and colour of `src` above new children. */
  function Copy(src: Tree, newLeft: Tree, newRight: Tree): Tree {
    CopyWithColor(src, newLeft, newRight, ColorOf(src))
  }

  /**
    `Copy` paired with a super-black flag. The flag is only ever set on a
    node: an absent source carries none, as `isSuperBlack(null)` is false.
   */
  function CopyWithSuperBlack(src: Tree, newLeft: Tree, newRight: Tree, superBlack: bool): (r: Removal)
    ensures r.Changed? && (r.tree.Node? <==> src.Node?)
    ensures r.superBlack <==> r.tree.Node? && superBlack
  {
    Changed(Copy(src, newLeft, newRight), src.Node? && superBlack)
  }

  /**
    Left rotation of `parent` whose right child is `child`: `child` moves up,
    `parent` moves down to the left and takes `child`'s left subtree. The
    right child stored in `parent` is not read.
   */
  function RotateLeft(child: Tree, parent: Tree): Tree {
    var newChild := Copy(parent, LeftOf(parent), LeftOf(child));
    Copy(child, newChild, RightOf(child))
  }

  /** Mirror image of `RotateLeft`: `child` is the left child of `parent`. */
  function RotateRight(child: Tree, parent: Tree): Tree {
    var newChild := Copy(parent, RightOf(child), RightOf(parent));
    Copy(child, LeftOf(child), newChild)
  }

  // ---------------------------------------------------------------------

  /**
    `r` holds what a plain rebuild of `self` above `newLeft` and `newRight`
    holds: the same in-order keys, entries and node count, and exact cached
    sizes when the children have them. Every fixup must satisfy this.
   */
  ghost predicate IsRebuildOf(r: Tree, self: Tree, newLeft: Tree, newRight: Tree)
    requires self.Node?
  {
    && Inorder(r) == Inorder(newLeft) + [self.key] + Inorder(newRight)
    && Content(r) == Content(newLeft) + map[self.key := self.value] + Content(newRight)
    && Count(r) == Count(newLeft) + 1 + Count(newRight)
    && (SizeOk(newLeft) && SizeOk(newRight) ==> SizeOk(r))
  }

  /** Recolouring changes neither entries, in-order keys, sizes nor order. */
  lemma SetColorKeepsEntries(t: Tree, c: Color)
    ensures var r := SetColor(t, c);
      && Content(r) == Content(t) && Inorder(r) == Inorder(t) && Count(r) == Count(t)
      && (r.Leaf? <==> t.Leaf?) && (t.Node? ==> ColorOf(r) == c)
      && Ordered(r) == Ordered(t) && SizeOk(r) == SizeOk(t)
      && Balanced(r) == Balanced(t) && ChildrenNoRedRed(r) == ChildrenNoRedRed(t)
  {
  }

  /** A copy holds the entry of its source between the entries of its new children, with an exact size. */
  lemma CopyWithColorEntries(src: Tree, newLeft: Tree, newRight: Tree, c: Color)
    requires src.Node?
    ensures var t := CopyWithColor(src, newLeft, newRight, c);
      && Content(t) == Content(newLeft) + map[src.key := src.value] + Content(newRight)
      && Inorder(t) == Inorder(newLeft) + [src.key] + Inorder(newRight)
      && Count(t) == Count(newLeft) + 1 + Count(newRight)
      && (SizeOk(newLeft) && SizeOk(newRight) ==> SizeOk(t))
  {
  }

  /**
    A left rotation keeps the in-order key sequence, the entries and the
    node count of `parent` with `child` as its right child, and keeps
    cached sizes exact.
   */
  lemma RotateLeftKeepsEntries(child: Tree, parent: Tree)
    requires child.Node? && parent.Node?
    ensures var t := RotateLeft(child, parent);
      && Inorder(t) == Inorder(parent.left) + [parent.key] + Inorder(child)
      && Content(t) == Content(parent.left) + map[parent.key := parent.value] + Content(child)
      && Count(t) == Count(parent.left) + 1 + Count(child)
      && (SizeOk(parent.left) && SizeOk(child) ==> SizeOk(t))
  {
    var a, b, c := Content(parent.left), Content(child.left), Content(child.right);
    var p, q := map[parent.key := parent.value], map[child.key := child.value];
    MergeAssoc(a + p, b, q);
    MergeAssoc(a + p, b + q, c);
  }

  /** Mirror image of `RotateLeftKeepsEntries`. */
  lemma RotateRightKeepsEntries(child: Tree, parent: Tree)
    requires child.Node? && parent.Node?
    ensures var t := RotateRight(child, parent);
      && Inorder(t) == Inorder(child) + [parent.key] + Inorder(parent.right)
      && Content(t) == Content(child) + map[parent.key := parent.value] + Content(parent.right)
      && Count(t) == Count(child) + 1 + Count(parent.right)
      && (SizeOk(child) && SizeOk(parent.right) ==> SizeOk(t))
  {
    var a, b, c := Content(child.left), Content(child.right), Content(parent.right);
    var p, q := map[parent.key := parent.value], map[child.key := child.value];
    MergeAssoc(a + q, b, p);
    MergeAssoc(a + q, b + p, c);
  }
}

=== FILE: tree_map.dfy ===
/**
  The public face of TreeNode.java: `empty`, `single`, `add`, `remove`,
  `get` and `size` on the root of a tree, with the map laws and the
  red-black invariants every returned root satisfies.

  The Java `empty()` is a node with size 0, a dummy key 0 and a null
  value; here it is `Leaf`, on which `Get` answers `None` for every key.
 */
module TreeMap {
  import opened TreeNodes
  import opened Primitives
  import opened Lookup
  import opened Insertion
  import opened Deletion

  function Empty(): (t: Tree)
    ensures IsRedBlack(t) && Content(t) == map[] && Size(t) == 0
  {
    Leaf
  }

  /** The number of entries, read from the root's cached size. */
  function Size(t: Tree): nat {
    SizeOf(t)
  }

  /** Insert or overwrite `key`, then paint the root black. */
  function Add(t: Tree, key: int, value: string): (r: Tree)
    ensures r.Node? && IsBlack(r)
  {
    if SizeOf(t) == 0 then Node(Black, Leaf, key, value, Leaf, 1)
    else
      var node := AddNode(t, key, value);
      if IsRed(node) then SetColor(node, Black) else node
  }

  function Single(key: int, value: string): (r: Tree)
    ensures IsRedBlack(r) && Content(r) == map[key := value] && Size(r) == 1
  {
    Add(Empty(), key, value)
  }

  /**
    Delete `key`, then paint a red root black. A tree without the key comes
    back as it was, except that a red receiver (a subtree reached through a
    child field) is repainted black like any other red result.
   */
  function Remove(t: Tree, key: int): (r: Tree)
    ensures SizeOf(t) != 0 ==> IsBlack(r)
  {
    if SizeOf(t) == 0 then t
    else
      match RemoveNode(t, key)
      case Unchanged => if IsRed(t) then SetColor(t, Black) else t
      case Changed(node, _) =>
        if node.Leaf? then Empty()
        else if IsRed(node) then SetColor(node, Black)
        else node
  }

  // ---------------------------------------------------------------------
  // Map laws and invariants

  /** The cached size of a valid tree is the number of keys it maps. */
  lemma SizeIsNumberOfKeys(t: Tree)
    requires Ordered(t) && SizeOk(t)
    ensures Size(t) == |Content(t)|
  {
    SizeOfIsCount(t);
    CountIsNumberOfKeys(t);
  }

  /** A black root above a subtree whose children have no red-red violation has none itself. */
  lemma BlackRootNoRedRed(t: Tree)
    requires IsBlack(t) && ChildrenNoRedRed(t)
    ensures NoRedRed(t)
  {
  }

  /** `add` keeps every red-black invariant, maps `key` to `value`, keeps every other entry, and grows only for a new key. */
  lemma AddIsRedBlack(t: Tree, key: int, value: string)
    requires IsRedBlack(t)
    ensures var r := Add(t, key, value);
      && IsRedBlack(r)
      && Content(r) == Content(t)[key := value]
      && Size(r) == Size(t) + (if key in Content(t) then 0 else 1)
  {
    SizeOfIsCount(t);
    if SizeOf(t) != 0 {
      var node := AddNode(t, key, value);
      assert node == AddIntoChildNode(t, key, value);
      AddIntoChildNodeEntries(t, key, value);
      AddIntoChildNodeBalance(t, key, value);
      var r := Add(t, key, value);
      SetColorKeepsEntries(node, Black);
      if IsRed(node) {
        BlackRootNoRedRed(r);
      }
      SizeOfIsCount(r);
    }
  }

  /** `remove` keeps every red-black invariant, drops exactly `key`, and shrinks only when the key was there. */
  lemma RemoveIsRedBlack(t: Tree, key: int)
    requires IsRedBlack(t)
    ensures var r := Remove(t, key);
      && IsRedBlack(r)
      && Content(r) == Content(t) - {key}
      && Size(r) + (if key in Content(t) then 1 else 0) == Size(t)
      && (key !in Content(t) ==> r == t)
  {
    SizeOfIsCount(t);
    if SizeOf(t) != 0 {
      RemoveNodeEntries(t, key);
      RemoveNodeBalance(t, key);
      match RemoveNode(t, key)
      case Unchanged =>
      case Changed(node, superBlack) =>
        var r := Remove(t, key);
        SetColorKeepsEntries(node, Black);
        if node.Node? {
          BlackRootNoRedRed(r);
        }
        SizeOfIsCount(r);
    }
  }

  /** After `add(key, value)`, `get(key)` is `value` and every other key answers as before. */
  lemma GetAfterAdd(t: Tree, key: int, value: string, other: int)
    requires IsRedBlack(t)
    ensures Get(Add(t, key, value), other) == if other == key then Some(value) else Get(t, other)
  {
    AddIsRedBlack(t, key, value);
    GetMatchesContent(t, other);
    GetMatchesContent(Add(t, key, value), other);
  }

  /** After `remove(key)`, `get(key)` is absent and every other key answers as before. */
  lemma GetAfterRemove(t: Tree, key: int, other: int)
    requires IsRedBlack(t)
    ensures Get(Remove(t, key), other) == if other == key then None else Get(t, other)
  {
    RemoveIsRedBlack(t, key);
    GetMatchesContent(t, other);
    GetMatchesContent(Remove(t, key), other);
  }

  /** `remove` hands the very same tree back exactly when the key is absent. */
  lemma RemoveUnchangedIffAbsent(t: Tree, key: int)
    requires IsRedBlack(t)
    ensures Remove(t, key) == t <==> Get(t, key).None?
  {
    RemoveIsRedBlack(t, key);
    GetMatchesContent(t, key);
  }

  /**
    On any ordered tree with exact sizes, not only a valid root, removing an
    absent key keeps every entry and leaves a black root: a red receiver
    comes back as a black copy.
   */
  lemma RemoveAbsentRepaints(t: Tree, key: int)
    requires Ordered(t) && SizeOk(t) && key !in Content(t)
    ensures var r := Remove(t, key);
      && Content(r) == Content(t) && Inorder(r) == Inorder(t) && IsBlack(r)
      && (IsBlack(t) ==> r == t)
  {
    SizeOfIsCount(t);
    if SizeOf(t) != 0 {
      RemoveNodeEntries(t, key);
      SetColorKeepsEntries(t, Black);
    }
  }

  /** Removing a key twice is removing it once. */
  lemma RemoveIdempotent(t: Tree, key: int)
    requires IsRedBlack(t)
    ensures Remove(Remove(t, key), key) == Remove(t, key)
  {
    RemoveIsRedBlack(t, key);
    RemoveIsRedBlack(Remove(t, key), key);
  }

  /** Overwriting an existing key keeps the size and replaces the value. */
  lemma AddOverwrite(t: Tree, key: int, value: string)
    requires IsRedBlack(t) && Get(t, key).Some?
    ensures Size(Add(t, key, value)) == Size(t)
    ensures Get(Add(t, key, value), key) == Some(value)
  {
    GetMatchesContent(t, key);
    AddIsRedBlack(t, key, value);
    GetAfterAdd(t, key, value, key);
  }

  /** Adding a key and then removing it leaves the entries of the tree without that key. */
  lemma RemoveAfterAdd(t: Tree, key: int, value: string)
    requires IsRedBlack(t)
    ensures Content(Remove(Add(t, key, value), key)) == Content(t) - {key}
  {
    AddIsRedBlack(t, key, value);
    RemoveIsRedBlack(Add(t, key, value), key);
  }
}

=== FILE: tree_nodes.dfy ===
/**
  The node representation of the immutable red-black tree, the null-safe
  accessors of TreeNode.java, and the specification functions (contents,
  node count, black height) that state the tree's invariants.

  An absent child (`null` in the Java class) is `Leaf`. A `Leaf` is black,
  has no children and has size 0.
 */
module TreeNodes {

  datatype Color = Red | Black

  /** A node caches the number of nodes of its subtree in `size`. */
  datatype Tree =
    | Leaf
    | Node(color: Color, left: Tree, key: int, value: string, right: Tree, size: nat)

  /** Which child of a node a recursive insert or delete went into. */
  datatype Side = Left | Right

  /**
    The outcome of removing a key from a subtree. `Unchanged` is the subtree
    handed back as it was (the key is not in it). `Changed` carries the
    rebuilt subtree and its "super black" flag: the subtree is one black node
    short of its former black height and the ancestors must make up for it.
   */
  datatype Removal = Unchanged | Changed(tree: Tree, superBlack: bool)

  function ColorOf(t: Tree): Color {
    if t.Leaf? then Black else t.color
  }

  function LeftOf(t: Tree): Tree {
    if t.Leaf? then Leaf else t.left
  }

  function RightOf(t: Tree): Tree {
    if t.Leaf? then Leaf else t.right
  }

  function SizeOf(t: Tree): nat {
    if t.Leaf? then 0 else t.size
  }

  predicate IsBlack(t: Tree) {
    ColorOf(t) == Black
  }

  predicate IsRed(t: Tree) {
    ColorOf(t) == Red
  }

  // ---------------------------------------------------------------------
  // Specification functions

  /** The number of nodes, computed rather than cached. */
  ghost function Count(t: Tree): nat {
    match t
    case Leaf => 0
    case Node(_, l, _, _, r, _) => Count(l) + 1 + Count(r)
  }

  /** The key/value pairs of a tree, merged in in-order position. */
  ghost function Content(t: Tree): map<int, string> {
    match t
    case Leaf => map[]
    case Node(_, l, k, v, r, _) => Content(l) + map[k := v] + Content(r)
  }

  /** The keys in in-order (left, node, right) sequence. */
  ghost function Inorder(t: Tree): seq<int> {
    match t
    case Leaf => []
    case Node(_, l, k, _, r, _) => Inorder(l) + [k] + Inorder(r)
  }

  /** Binary-search-tree order: left keys < node key < right keys. */
  ghost predicate Ordered(t: Tree) {
    match t
    case Leaf => true
    case Node(_, l, k, _, r, _) =>
      && Ordered(l) && Ordered(r)
      && (forall x :: x in Content(l) ==> x < k)
      && (forall x :: x in Content(r) ==> k < x)
  }

  /** Strictly increasing. */
  ghost predicate Sorted(s: seq<int>) {
    forall i, j :: 0 <= i < j < |s| ==> s[i] < s[j]
  }

  /** Every cached size equals sizeOf(left) + sizeOf(right) + 1. */
  ghost predicate SizeOk(t: Tree) {
    match t
    case Leaf => true
    case Node(_, l, _, _, r, n) => SizeOk(l) && SizeOk(r) && n == SizeOf(l) + SizeOf(r) + 1
  }

  /** No red node has a red child. */
  ghost predicate NoRedRed(t: Tree) {
    match t
    case Leaf => true
    case Node(c, l, _, _, r, _) =>
      && (c == Red ==> IsBlack(l) && IsBlack(r))
      && NoRedRed(l) && NoRedRed(r)
  }

  /** `NoRedRed` below the root: the root itself may be a red node with a red child. */
  ghost predicate ChildrenNoRedRed(t: Tree) {
    t.Leaf? || (NoRedRed(t.left) && NoRedRed(t.right))
  }

  /** Black nodes on the leftmost path, not counting the absent child below it. */
  ghost function BlackHeight(t: Tree): nat {
    match t
    case Leaf => 0
    case Node(c, l, _, _, _, _) => BlackHeight(l) + (if c == Black then 1 else 0)
  }

  /** Every path from a node down to an absent child crosses the same number of black nodes. */
  ghost predicate Balanced(t: Tree) {
    match t
    case Leaf => true
    case Node(_, l, _, _, r, _) => Balanced(l) && Balanced(r) && BlackHeight(l) == BlackHeight(r)
  }

  /** The invariants of every tree handed to a caller of `add` or `remove`. */
  ghost predicate IsRedBlack(t: Tree) {
    Ordered(t) && SizeOk(t) && NoRedRed(t) && Balanced(t) && IsBlack(t)
  }

  // ---------------------------------------------------------------------
  // Lemmas about the specification functions

  /** In an ordered tree the keys are exactly the in-order sequence's elements. */
  lemma {:induction false} InorderHasContentKeys(t: Tree)
    ensures forall x :: x in Content(t) <==> x in Inorder(t)
  {
    match t
    case Leaf =>
    case Node(_, l, k, _, r, _) =>
      InorderHasContentKeys(l);
      InorderHasContentKeys(r);
  }

  /** Map union is associative, whichever keys the operands share. */
  lemma MergeAssoc(a: map<int, string>, b: map<int, string>, c: map<int, string>)
    ensures a + b + c == a + (b + c)
  {
  }

  /** Updating a key that the right operand lacks commutes with the union. */
  lemma UpdateBeforeMerge(a: map<int, string>, b: map<int, string>, key: int, value: string)
    requires key !in b
    ensures a[key := value] + b == (a + b)[key := value]
  {
  }

  /** Updating the right operand of a union is updating the union. */
  lemma UpdateAfterMerge(a: map<int, string>, b: map<int, string>, key: int, value: string)
    ensures a + b[key := value] == (a + b)[key := value]
  {
  }

  /** The cached size is exact on every tree whose sizes are consistent bottom-up. */
  lemma {:induction false} SizeOfIsCount(t: Tree)
    requires SizeOk(t)
    ensures SizeOf(t) == Count(t)
  {
    match t
    case Leaf =>
    case Node(_, l, _, _, r, _) =>
      SizeOfIsCount(l);
      SizeOfIsCount(r);
  }

  /** A map joined around a key smaller than all of its right part and larger than all of its left part. */
  lemma JoinSize(a: map<int, string>, k: int, v: string, b: map<int, string>)
    requires forall x :: x in a ==> x < k
    requires forall x :: x in b ==> k < x
    ensures |a + map[k := v] + b| == |a| + 1 + |b|
  {
    var mid := a + map[k := v];
    assert mid.Keys == a.Keys + {k};
    assert |mid.Keys| == |a.Keys| + 1;
    assert mid.Keys !! b.Keys by {
      forall x | x in mid.Keys ensures x !in b.Keys {
        assert x <= k;
      }
    }
    assert (mid + b).Keys == mid.Keys + b.Keys;
  }

  /** The node count of an ordered tree is the number of keys it maps. */
  lemma {:induction false} CountIsNumberOfKeys(t: Tree)
    requires Ordered(t)
    ensures |Content(t)| == Count(t)
  {
    match t
    case Leaf =>
    case Node(_, l, k, v, r, _) =>
      CountIsNumberOfKeys(l);
      CountIsNumberOfKeys(r);
      JoinSize(Content(l), k, v, Content(r));
  }

  ghost predicate Separates(a: seq<int>, k: int, b: seq<int>) {
    (forall x :: x in a ==> x < k) && (forall x :: x in b ==> k < x)
  }

  lemma SortedJoinSplits(a: seq<int>, k: int, b: seq<int>)
    requires Sorted(a + [k] + b)
    ensures Sorted(a) && Sorted(b) && Separates(a, k, b)
  {
    var s := a + [k] + b;
    assert s[|a|] == k;
    forall x | x in a ensures x < k {
      var i :| 0 <= i < |a| && a[i] == x;
      assert s[i] == x;
    }
    forall x | x in b ensures k < x {
      var j :| 0 <= j < |b| && b[j] == x;
      assert s[|a| + 1 + j] == x;
    }
    forall i, j | 0 <= i < j < |a| ensures a[i] < a[j] {
      assert s[i] == a[i] && s[j] == a[j];
    }
    forall i, j | 0 <= i < j < |b| ensures b[i] < b[j] {
      assert s[|a| + 1 + i] == b[i] && s[|a| + 1 + j] == b[j];
    }
  }

  lemma SortedJoinJoins(a: seq<int>, k: int, b: seq<int>)
    requires Sorted(a) && Sorted(b) && Separates(a, k, b)
    ensures Sorted(a + [k] + b)
  {
    var s := a + [k] + b;
    forall i, j | 0 <= i < j < |s| ensures s[i] < s[j] {
      if j < |a| {
        assert s[i] == a[i] && s[j] == a[j];
      } else if j == |a| {
        assert s[i] == a[i] && a[i] in a;
      } else if i < |a| {
        assert s[i] == a[i] && a[i] in a;
        assert s[j] == b[j - |a| - 1] && b[j - |a| - 1] in b;
      } else if i == |a| {
        assert s[j] == b[j - |a| - 1] && b[j - |a| - 1] in b;
      } else {
        assert s[i] == b[i - |a| - 1] && s[j] == b[j - |a| - 1];
      }
    }
  }

  /** Binary-search-tree order is exactly a strictly increasing in-order key sequence. */
  lemma {:induction false} OrderedIffSorted(t: Tree)
    ensures Ordered(t) <==> Sorted(Inorder(t))
  {
    match t
    case Leaf =>
    case Node(_, l, k, _, r, _) =>
      OrderedIffSorted(l);
      OrderedIffSorted(r);
      InorderHasContentKeys(l);
      InorderHasContentKeys(r);
      if Sorted(Inorder(t)) {
        SortedJoinSplits(Inorder(l), k, Inorder(r));
      }
      if Ordered(t) {
        SortedJoinJoins(Inorder(l), k, Inorder(r));
      }
  }

  /** Order depends on the in-order key sequence alone, so any rebuild that keeps it keeps order. */
  lemma SameInorderSameOrder(a: Tree, b: Tree)
    requires Inorder(a) == Inorder(b)
    ensures Ordered(a) <==> Ordered(b)
  {
    OrderedIffSorted(a);
    OrderedIffSorted(b);
  }
}
